=== FILE: README.md ===
# K-map minimiser in Dafny

This project models the Boolean minimisation engine of a browser Karnaugh-map
solver (`script.js`). Given a list of minterms and a variable count n, the
engine returns a sum-of-products expression. It works in five stages:

1. It marks the minterms in a grid of 2^n cells.
2. It grows candidate groups of 2^n, 2^(n-1), …, 1 cells from every 1-cell.
   - For two variables this is a neighbour scan over a hard-coded table.
   - For three and four variables it is a breadth-first search over a
     hard-coded table.
   - A group is kept only if it has exactly the target size, that size is a
     power of two, and its sorted cell list is new.
3. It picks a greedy cover: it scans the candidates largest first and keeps
   every group that adds an uncovered cell. It stops once the number of
   covered cells equals the number of minterms.
4. It names each kept group with a per-n term table and drops the empty
   names.
5. It joins the names with `" + "` and attaches a law name for each group's
   size.

The model is functional. The grid is `seq<bool>`, a group is a sorted
`seq<nat>` of cell indices, and JavaScript's stable `Array.prototype.sort` is
a stable insertion sort (`Seqs.SortBy`). The breadth-first search is written
twice: once as a function, and once as a queue loop proved equal to it.

To say what an expression *means*, the `Semantics` module evaluates the
printed text directly:
- A term is a product of letters `A`, `B`, … with an optional `'`.
- Variable `A` is the most significant bit of the cell index.
- `"1"` holds everywhere. `"0"` and `""` hold nowhere.

Every term table is checked against this evaluator. `MintermTerm(n, idx)`
is an independent reference spelling of a single cell.

The program's own oddities are kept, not corrected, and each is stated as a
lemma:
- **4-variable table gaps.** The table omits the wrap-around pairs 0–2, 8–10
  and 12–14 but lists 4–6 (`Adjacency.Adj4Gaps`).
- **3-variable singleton table.** It is written in Gray order but indexed by
  cell value. Cells 2, 3, 6 and 7 therefore get the term of the cell they
  are swapped with (`Terms.ThreeVarSingletonNames`).
- **3-variable pair table.** It has no entry for {0,2}, {1,3}, {4,6} or
  {5,7} (`Terms.ThreeVarPairNames`).
- **4-variable groups of 2, 4 and 8 cells.** These are always named `''`
  (`Terms.FourVarStubsEmpty`).
- **2-variable grouping.** It only looks at the start cell's own neighbours
  (`GroupFinder.Find2VarGroup`).

These oddities decide what can be proved from start to finish:
- For two variables the expression holds exactly at the minterms
  (`KMap.TwoVarExact`).
- For four variables it holds only at minterms (`KMap.FourVarSound`).
- For three variables it holds only at minterms or at their Gray-swapped
  cells (`KMap.ThreeVarSoundUpToGray`).

The drawn 4×4 map (`generateKMap4Var`, script.js:110-145) lays the cells
out in Gray order on both axes, so 0–2, 8–10 and 12–14 face each other
across its edges, as in any Karnaugh map. The adjacency table
(script.js:360-365) does not join those pairs, and the model follows the
table.

The two loops of `findAllPrimeImplicants` are written over any growth
rule (`GroupFinder.Grower`). `GroupFinder.FindAllPrimeImplicants` runs
them with `findPrimeGroup` (`GroupFinder.Growth`). The lemmas about the
loops assume only two facts about the rule. It grows only candidates,
which `GroupFinder.GrowthAcceptsCandidates` proves for `findPrimeGroup`.
It turns each 1-cell into its own singleton at size 1, which
`GroupFinder.GrowthGivesSingletons` proves.

## Model

| member | source | states |
|---|---|---|
| Bits.BitAndTestIsPow2 | script.js:393-396 | the bit test "positive, and sharing no bit with its predecessor" holds exactly when the size is a power of two |
| Seqs.SortBySorted | script.js:290 | the sort orders its input by the key, and a duplicate-free input stays duplicate-free |
| Seqs.SortByStable | script.js:290 | the sort is stable: for each key, the elements with that key keep their relative order |
| Seqs.SortedDistinctIsStrict | script.js:192 | a sorted list without repeats is strictly ascending |
| Seqs.Dedup | script.js:192 | set-based deduplication leaves no repeats and keeps the members of `xs` |
| Grid.Mark | script.js:235-237 | marking keeps the grid length, and a cell is 1 afterwards iff it was 1 or is a listed minterm |
| Grid.BuildGrid | script.js:233-237 | the grid has 2^n entries, and entry i is 1 iff i is a minterm |
| Adjacency.Adj2WellFormed | script.js:329-334 | the 2-variable table is symmetric and lists each cell's two one-bit flips |
| Adjacency.Adj3WellFormed | script.js:350-353 | the 3-variable table is symmetric and lists each cell's three one-bit flips |
| Adjacency.Adj4WellFormed | script.js:360-365 | the 4-variable table is symmetric; every entry is one bit away; every one-bit flip is listed except the three gap pairs; rows have 3 or 4 entries |
| Adjacency.Adj4Gaps | script.js:361-364 | the pairs 0–2, 8–10 and 12–14 are one bit apart but not listed, while 4–6 is listed |
| Bfs.Discover | script.js:381-386 | one scan of a neighbour row adds only unvisited 1-cells from that row. It stops at the target size, and otherwise it adds every unvisited 1-neighbour |
| Bfs.GrowProperties | script.js:378-387 | the loop keeps the visited list duplicate-free, all 1-cells, linked to earlier cells, and within the target size. When it ends short of the target, no 1-neighbour is left out |
| Bfs.Grow | script.js:378-387 | the functional loop itself carries no contract; its results are stated by `Bfs.GrowProperties` and `Bfs.FindGroupBfs`, and `Bfs.FindGroupBfsQueue` proves the queue loop equal to it |
| Bfs.FindGroupBfs | script.js:371-390 | `[]` when the start cell is 0. Otherwise the result starts with the start cell and holds at most `targetSize` distinct 1-cells. Each later cell is a table neighbour of an earlier one. A result shorter than the target is closed under 1-neighbours |
| Bfs.FindGroupBfsQueue | script.js:371-390 | the queue loop returns the same list as the functional search |
| GroupFinder.CollectNeighbours | script.js:339-343 | the scan keeps the cells it started with. It adds only 1-valued table neighbours, stops at `size` cells, and adds no repeats. Unless it reaches `size` cells, every 1-valued neighbour is in the result |
| GroupFinder.CollectTakesFirstOnes | script.js:339-343 | the scan adds exactly the first 1-valued neighbours in table order, as many as fit below `size` |
| GroupFinder.Find2VarGroup | script.js:328-346 | only 1-cells, no repeats, at most `size` (and at most 3) of them. The start cell is first exactly when it is 1, and every other cell is a table neighbour of it. Unless the list reaches `size` cells, it holds every 1-valued table neighbour of the start cell |
| GroupFinder.Find2VarTakesFirstOnes | script.js:328-346 | the list is the start cell if it is 1, followed by the first 1-valued table neighbours in table order, as many as fit below `size` |
| GroupFinder.Find2VarGroupTableOrder | script.js:328-346 | with cells 0, 1 and 2 set and size 2, the group from cell 0 is `[0, 1]`: the earlier neighbour in table order wins |
| GroupFinder.Find3VarGroup | script.js:349-356 | the search over the 3-variable table; its contract is carried by `GroupFinder.BfsGroupsJoinedByFlips` |
| GroupFinder.Find4VarGroup | script.js:359-368 | the search over the 4-variable table; its contract is carried by `GroupFinder.BfsGroupsJoinedByFlips` |
| GroupFinder.LinkedByFlips | script.js:349-368 | over a table whose entries are all one-bit flips, a list in which every later cell neighbours an earlier one has every later cell one bit away from an earlier one |
| GroupFinder.BfsGroupsJoinedByFlips | script.js:349-390 | for both tables, the search returns `[]` iff the start cell is 0. Otherwise the list starts with the start cell and holds at most `max(1, size)` cells. The cells are distinct 1-cells, and each later cell is one bit away from an earlier one |
| GroupFinder.GrowCells | script.js:310-322 | the collected cells are distinct 1-cells within the size. They contain a 1-valued start cell for size 1 and for n = 2..4, and for size 1 they are exactly the start cell |
| GroupFinder.GrowCellsDispatch | script.js:310-322 | past size 1 the collected cells are the 2-variable scan for n = 2, the breadth-first search over the 3- or 4-variable table for n = 3 or 4, and empty for any other n |
| GroupFinder.FindPrimeGroup | script.js:309-325 | a returned group is non-empty, strictly ascending, all 1-cells and within the size. A 1-valued start cell always yields a group containing it (size 1, or n = 2..4) |
| GroupFinder.FindPrimeGroupSortsGrowth | script.js:309-325 | there is a group iff the grown cells are non-empty, and it holds exactly the grown cells, as many as were grown |
| GroupFinder.FindPrimeGroupShape | script.js:312-317 | size 1 yields the singleton of the start cell. For n = 2 a group has at most 3 cells, and a pair is two table neighbours |
| GroupFinder.FindPrimeGroupPair | script.js:316-321 | for n = 2..4 a two-cell group is two cells one bit apart |
| GroupFinder.IsValidGroup | script.js:393-396 | a group is valid iff its length is a power of two |
| GroupFinder.ArraysEqual | script.js:399-402 | on ascending cell lists, the comparison is true iff the lists are equal |
| GroupFinder.ScanCells | script.js:268-278 | the inner loop over the cells carries no contract; `GroupFinder.ScanCellsSingletons` and `GroupFinder.ScanCellsFullAt` state what it keeps |
| GroupFinder.ScanSizes | script.js:267-279 | the outer loop over the sizes carries no contract; `GroupFinder.ScanSizesInvariant` and `GroupFinder.ScanSizesFullAt` state what it keeps |
| GroupFinder.GrowthAcceptsCandidates | script.js:309-325 | every group `findPrimeGroup` grows from a 1-cell to exactly 2^e cells (e <= n) is a candidate: ascending, of power-of-two size at most 2^n, made of 1-cells, and for n = 2..4 a pair is one bit apart |
| GroupFinder.GrowthGivesSingletons | script.js:312-324 | at size 1 `findPrimeGroup` grows every 1-cell into its own singleton |
| GroupFinder.AcceptKeepsCandidateList | script.js:271-276 | appending a candidate of the pass's size whose cells no held group has keeps the list free of repeated cell lists and in non-increasing size |
| GroupFinder.ScanCellsFullAt | script.js:268-278 | for a growth rule that grows only candidates: in the pass for size 2^e, a group grown from a 1-cell to exactly 2^e cells is in the list after the pass, either accepted then or already held |
| GroupFinder.ScanSizesFullAt | script.js:267-279 | for a growth rule that grows only candidates: a group grown from a 1-cell to exactly 2^d cells, for any d up to the first pass's exponent, is in the final list |
| GroupFinder.ScanSizesGrown | script.js:267-279 | the passes append only groups grown from the current 1-cell to exactly the pass's size, so every group of the final list is such a growth |
| GroupFinder.ScanCellsSingletons | script.js:268-278 | for a growth rule that turns each 1-cell into its singleton at size 1: in the size-1 pass, every 1-cell ends up as a singleton group (accepted now or already present) |
| GroupFinder.ScanSizesInvariant | script.js:267-279 | for a growth rule that grows only candidates and gives singletons at size 1: across all passes the list stays a list of candidates without repeated cell lists, in non-increasing size. After the last pass every 1-cell is a singleton in it |
| GroupFinder.FindAllPrimeImplicants | script.js:262-282 | every group is ascending, of power-of-two size at most 2^n, and made of 1-cells. No two groups share a cell list, and sizes never increase. Every 1-cell appears as a singleton group, and the list holds exactly the groups grown from a 1-cell to exactly 2^e cells (e <= n): every such growth is listed, and every listed group is one. For n = 2 each group is a singleton or a neighbour pair, and for n = 2..4 each pair is one bit apart |
| CoverSelector.NewCoverage | script.js:294 | the filter keeps exactly the group's cells that are not covered, in order |
| CoverSelector.Select | script.js:292-303 | the scan with its break, carrying no contract of its own; `CoverSelector.SelectIsGreedy` proves it equal to the reference `Greedy`, and the `Select*` rows below state its properties |
| CoverSelector.SelectIsGreedy | script.js:292-303 | the scan that carries the covered set forward keeps exactly the groups of `Greedy`, which decides each group against the groups kept before it |
| CoverSelector.GreedyKeepsIff | script.js:294-301 | reading one more group either keeps it or changes nothing. It is kept iff the scan has not stopped (no kept group yet, or the covered count differs from the minterm count) and the group has a cell not yet covered |
| CoverSelector.GreedyPrefixes | script.js:292-303 | the groups kept from any prefix of the input are a prefix of the groups kept from the whole input |
| CoverSelector.SelectAddsNew | script.js:292-303 | every kept group adds a cell that neither the starting cover nor the earlier kept groups cover |
| CoverSelector.SelectStopsFirst | script.js:300-301 | the scan never continues past a point where the covered count equals the minterm count |
| CoverSelector.SelectCovers | script.js:292-303 | when all cells lie in a universe of `target` cells, the kept groups cover everything the scanned groups cover |
| CoverSelector.FindEssentialPrimeImplicants | script.js:285-306 | the result is a subsequence of the stable largest-first sort, and is largest first itself. Each kept group adds a new cell, and no proper prefix already reaches the minterm count. When the candidates cover exactly the distinct minterms, so does the result, with at most one group per minterm. The result equals `Greedy` over the sorted list. For each position i of the sorted list, the groups kept from the first i are a prefix of the result, and group i is kept iff the scan has not stopped and it adds a cell not yet covered |
| Semantics.SplitJoin | script.js:248 | splitting the terms joined with `" + "` at the separators gives back the terms when none contains a space |
| Semantics.HoldsJoin | script.js:248 | a joined sum holds at a cell iff one of its terms does |
| Terms.GenerateTerm | script.js:444-471 | the term is `1` iff n is 2..4 and the group has 2^n cells, and it is non-empty only for n = 2..4. What each term means is stated by the `*Names` rows below |
| Terms.TermNoSpace | script.js:444-471 | no term contains a space, so the joined expression splits back into its terms |
| Terms.Term2Var1IsMinterm | script.js:453-457 | the 2-variable singleton table gives the reference minterm spelling of bits 1..0 |
| Terms.TwoVarSingletonNames | script.js:453-457 | a 2-variable singleton's term holds at exactly its cell |
| Terms.TwoVarPairNames | script.js:447-452 | the term of a 2-variable neighbour pair holds at exactly its two cells |
| Terms.Term3Var1IsGrayMinterm | script.js:474-481 | the 3-variable singleton term of cell i is the reference minterm of `[0,1,3,2,4,5,7,6][i]` |
| Terms.ThreeVarSingletonNames | script.js:474-481 | a 3-variable singleton's term holds at exactly one cell, which is its own cell iff the cell is 0, 1, 4 or 5 |
| Terms.ThreeVarPairNames | script.js:483-491 | for a one-bit pair, the term is `''` iff the cells are two apart. Otherwise it holds at exactly the two cells |
| Terms.PairTableGaps | script.js:485-490 | the pairs {0,2}, {1,3}, {4,6} and {5,7} have no entry |
| Terms.ThreeVarQuadNames | script.js:493-502 | a named 3-variable quad's term holds at exactly its four cells |
| Terms.Term4Var1IsMinterm | script.js:505-512 | the 4-variable singleton term spells A..D from bits 3..0, primed when the bit is 0 |
| Terms.FourVarSingletonNames | script.js:505-512 | a 4-variable singleton's term holds at exactly its cell |
| Terms.FourVarStubsEmpty | script.js:514-527 | 4-variable groups of 2, 4 or 8 cells are named `''` |
| Laws.ExplanationLaw | script.js:417-432 | the law chosen in the explanation for a group size; `Laws.LawTablesCoverPowersOfTwo`, `Laws.ExplanationLawMatchesSize` and `Laws.LawTablesAgree` state its contract |
| Laws.BooleanLaw | script.js:590-599 | the law looked up for the group list; `Laws.LawTablesCoverPowersOfTwo` and `Laws.LawTablesAgree` state its contract |
| Laws.LawTablesCoverPowersOfTwo | script.js:590-599 | both law tables have a proper entry exactly for the sizes 1, 2, 4, 8, 16 |
| Laws.ExplanationLawMatchesSize | script.js:417-433 | the named law eliminates as many variables as the size says: 2^eliminated = size |
| Laws.LawTablesAgree | script.js:590-599 | the explanation's law and the group list's law differ only for groups of four |
| KMap.GenerateExplanation | script.js:405-441 | no groups give the no-groups explanation, and only they do. Otherwise there is one step per group, numbered from 1, with the group's cells and term, and the law the explanation table gives for its size. A step names a law iff its size is a power of two up to 16, and that law's eliminated variables account for the size |
| KMap.ExplainFrom | script.js:410-437 | one step per group, numbered from 1, with the group's cells, its term and the law for its size |
| KMap.NonEmptyTerms | script.js:246 | the kept terms are exactly the non-empty terms of the groups, and none contains a space |
| KMap.Assemble | script.js:248-252 | the assembled expression is never empty, so the fallback to `0` for an empty expression never fires |
| KMap.SimplifyKMap | script.js:211-259 | no minterms give `0` and all 2^n give `1`, both with no groups; `simplifiedForm` is `F = ` plus the expression. Otherwise the candidates are exactly what the finder grows in the grid of the minterms, and the selected groups are exactly the greedy cover of them. The selected groups cover exactly the minterms, are no more numerous than the minterms, and are ascending lists of minterms of power-of-two size |
| KMap.CandidatesCoverMinterms | script.js:233-240 | the candidates found in the grid of the minterms cover exactly the minterms |
| KMap.CandidateFacts | script.js:240 | a candidate is an ascending list of minterms, of power-of-two size, no longer than the minterm list |
| KMap.ExpressionMeaning | script.js:246-252 | the expression holds at a cell iff the term of some selected group holds there |
| KMap.AllCellsListed | script.js:224 | a valid list of 2^n minterms contains every cell, so the constant-1 short-circuit means every cell is a minterm |
| KMap.ConstantCasesExact | script.js:212-231 | the `0` and `1` results hold exactly at the minterms |
| KMap.TwoVarExact | script.js:211-259 | for two variables the expression holds at a cell iff the cell is a minterm |
| KMap.FourVarSound | script.js:211-259 | for four variables the expression holds only at minterms |
| KMap.ThreeVarSoundUpToGray | script.js:211-259 | for three variables the expression holds only at cells that are minterms, or whose Gray-swapped partner is a minterm |
| KMap.ExplanationHasLaws | script.js:405-441 | past the short-circuits and for at most four variables, there is one step per selected group, and every step names a law whose eliminated variables match its size |
| KMap.Normalise | script.js:192 | the result is strictly ascending with the same members as the input |
| KMap.CheckMinterms | script.js:178-192 | an out-of-range value is refused first, reporting 2^n - 1, and an empty list is refused next. Otherwise the result is a non-empty, strictly ascending list in [0, 2^n - 1] with the same members as the input |
| KMap.SolveKMap | script.js:178-199 | a list is refused iff the input rule refuses it, with the error the rule reports. An accepted list gives exactly the minimisation of the checked list, never shows the constant-0 explanation and never gives an empty expression |

## Left out

- View layer: `generateKMap*`, `displayResults` and `displayTruthTable` build DOM nodes and are not modelled.
- Click toggling and the global `currentVariables`/`currentMinterms` state are not modelled. n and the minterms are parameters.
- Text parsing is not modelled: `split`, `parseInt`, `isNaN` and the empty-input message. `KMap.CheckMinterms` starts from the parsed integers.
- `loadExample`, `resetForm` and the `showError`/`showSuccess` timers are browser side effects and are not modelled.
- The explanation and law texts are not modelled. Laws are an enumeration keyed by size; the HTML markup, `details` lines and layout are left out.
- `KMap.SimplifyKMap`: requires a strictly ascending list of minterms below 2^n, which is what its only caller passes. Out-of-range indices, which would grow the JavaScript array, are not modelled.
- `Terms.Term3Var2` / `GroupFinder.ArraysEqual`: the in-place `sort` these apply to the group's own array is not modelled. The groups reaching them are already sorted, so the sort changes nothing.
- `KMap.CheckMinterms`: `parseInt` results are unbounded integers. JavaScript's 53-bit number precision does not matter for values in range.
- `KMap.ThreeVarSoundUpToGray`: states soundness only up to the Gray swap, not exactness. The singleton and pair tables make exactness false for three variables.
- `KMap.FourVarSound`: states soundness, not exactness. Groups of 2, 4 and 8 cells are named `''`, so their cells may be left out of the expression.
- `Laws.EliminatedVariables`: a reading of the `details` text of the explanation; for sixteen cells ("complete coverage") it counts all four variables.
- No concrete end-to-end input, such as two variables with minterms {1, 3}, is evaluated. The entry points are stated as the finder followed by the greedy cover, and their meaning is stated through the evaluator.

=== FILE: adjacency.dfy ===
/** The hard-coded Karnaugh adjacency tables of the 2-, 3- and 4-variable
    maps. A cell's index is its minterm; two cells are adjacent when their
    indices differ in one bit. The tables are the only notion of adjacency
    the group finder uses. */
module Adjacency {
  import opened Bits
  import opened Seqs

  /** `a` and `b` differ in exactly one bit: their exclusive or is a
      non-zero power of two. Cells are below 16, so eight bits suffice. */
  predicate OneBitApart(a: nat, b: nat)
  {
    && a < 256 && b < 256
    && var x := (a as bv8) ^ (b as bv8);
       x != 0 && x & (x - 1) == 0
  }

  /** `a` with bit `k` inverted. */
  function FlipBit(a: nat, k: nat): nat
    requires a < 256 && k < 8
  {
    ((a as bv8) ^ (1 << k)) as nat
  }

  /** The table of `find2VarGroup`; an empty row for cells it does not list. */
  function Adj2(c: nat): seq<nat>
  {
    match c
    case 0 => [1, 2]
    case 1 => [0, 3]
    case 2 => [0, 3]
    case 3 => [1, 2]
    case _ => []
  }

  /** The table of `find3VarGroup`. */
  function Adj3(c: nat): seq<nat>
  {
    match c
    case 0 => [1, 2, 4]
    case 1 => [0, 3, 5]
    case 2 => [0, 3, 6]
    case 3 => [1, 2, 7]
    case 4 => [0, 5, 6]
    case 5 => [1, 4, 7]
    case 6 => [2, 4, 7]
    case 7 => [3, 5, 6]
    case _ => []
  }

  /** The table of `find4VarGroup`. It lacks the row wrap-around pairs
      0-2, 8-10 and 12-14 but has 4-6. */
  function Adj4(c: nat): seq<nat>
  {
    match c
    case 0 => [1, 4, 8]
    case 1 => [0, 3, 5, 9]
    case 2 => [3, 6, 10]
    case 3 => [1, 2, 7, 11]
    case 4 => [0, 5, 6, 12]
    case 5 => [1, 4, 7, 13]
    case 6 => [2, 4, 7, 14]
    case 7 => [3, 5, 6, 15]
    case 8 => [0, 9, 12]
    case 9 => [1, 8, 11, 13]
    case 10 => [2, 11, 14]
    case 11 => [3, 9, 10, 15]
    case 12 => [4, 8, 13]
    case 13 => [5, 9, 12, 15]
    case 14 => [6, 10, 15]
    case 15 => [7, 11, 13, 14]
    case _ => []
  }

  /** The facts about one row of a table over the cells below `size`:
      every listed neighbour is a cell, differs from the key in one bit, is
      not the key, is listed once, and lists the key back. */
  ghost predicate RowWellFormed(adj: nat -> seq<nat>, a: nat, size: nat)
  {
    && Distinct(adj(a))
    && forall b | b in adj(a) :: b < size && a != b && OneBitApart(a, b) && a in adj(b)
  }

  /** A table over the cells below `size`, with no entries for other keys. */
  ghost predicate WellFormedTable(adj: nat -> seq<nat>, size: nat)
  {
    && (forall a: nat | a >= size :: adj(a) == [])
    && (forall a: nat | a < size :: RowWellFormed(adj, a, size))
  }

  /** Every single-bit flip of every cell below 2^n is listed. */
  ghost predicate ListsAllFlips(adj: nat -> seq<nat>, n: nat)
    requires n <= 8
  {
    forall a: nat, k: nat | a < Pow2(n) && k < n :: a < 256 && FlipBit(a, k) in adj(a)
  }

  lemma Adj2WellFormed()
    ensures WellFormedTable(Adj2, 4)
    ensures ListsAllFlips(Adj2, 2)
    ensures forall a | a < 4 :: |Adj2(a)| == 2
  {
    assert Pow2(2) == 4;
    forall a: nat | a < 4
      ensures RowWellFormed(Adj2, a, 4) && |Adj2(a)| == 2
      ensures forall k: nat | k < 2 :: FlipBit(a, k) in Adj2(a)
    {
      assert a == 0 || a == 1 || a == 2 || a == 3;
    }
  }

  // The rows of the 3- and 4-variable tables are checked one lemma per
  // row, which keeps each proof small.

  lemma Adj3Row0()
    ensures RowWellFormed(Adj3, 0, 8) && |Adj3(0)| == 3
    ensures forall k: nat | k < 3 :: FlipBit(0, k) in Adj3(0)
  {
  }

  lemma Adj3Row1()
    ensures RowWellFormed(Adj3, 1, 8) && |Adj3(1)| == 3
    ensures forall k: nat | k < 3 :: FlipBit(1, k) in Adj3(1)
  {
  }

  lemma Adj3Row2()
    ensures RowWellFormed(Adj3, 2, 8) && |Adj3(2)| == 3
    ensures forall k: nat | k < 3 :: FlipBit(2, k) in Adj3(2)
  {
  }

  lemma Adj3Row3()
    ensures RowWellFormed(Adj3, 3, 8) && |Adj3(3)| == 3
    ensures forall k: nat | k < 3 :: FlipBit(3, k) in Adj3(3)
  {
  }

  lemma Adj3Row4()
    ensures RowWellFormed(Adj3, 4, 8) && |Adj3(4)| == 3
    ensures forall k: nat | k < 3 :: FlipBit(4, k) in Adj3(4)
  {
  }

  lemma Adj3Row5()
    ensures RowWellFormed(Adj3, 5, 8) && |Adj3(5)| == 3
    ensures forall k: nat | k < 3 :: FlipBit(5, k) in Adj3(5)
  {
  }

  lemma Adj3Row6()
    ensures RowWellFormed(Adj3, 6, 8) && |Adj3(6)| == 3
    ensures forall k: nat | k < 3 :: FlipBit(6, k) in Adj3(6)
  {
  }

  lemma Adj3Row7()
    ensures RowWellFormed(Adj3, 7, 8) && |Adj3(7)| == 3
    ensures forall k: nat | k < 3 :: FlipBit(7, k) in Adj3(7)
  {
  }

  lemma Adj3WellFormed()
    ensures WellFormedTable(Adj3, 8)
    ensures ListsAllFlips(Adj3, 3)
    ensures forall a | a < 8 :: |Adj3(a)| == 3
  {
    assert Pow2(3) == 8;
    forall a: nat | a < 8
      ensures RowWellFormed(Adj3, a, 8) && |Adj3(a)| == 3
      ensures forall k: nat | k < 3 :: FlipBit(a, k) in Adj3(a)
    {

      if a == 0 {
        Adj3Row0();
      } else if a == 1 {
        Adj3Row1();
      } else if a == 2 {
        Adj3Row2();
      } else if a == 3 {
        Adj3Row3();
      } else if a == 4 {
        Adj3Row4();
      } else if a == 5 {
        Adj3Row5();
      } else if a == 6 {
        Adj3Row6();
      } else if a == 7 {
        Adj3Row7();
      }
    }
  }

  /** The three row wrap-around pairs of the 4x4 map that `Adj4` omits. */
  predicate Adj4Gap(a: nat, b: nat)
  {
    || (a == 0 && b == 2) || (a == 2 && b == 0)
    || (a == 8 && b == 10) || (a == 10 && b == 8)
    || (a == 12 && b == 14) || (a == 14 && b == 12)
  }

  lemma Adj4Row0()
    ensures Distinct(Adj4(0))
    ensures 3 <= |Adj4(0)| <= 4
    ensures forall b | b in Adj4(0) :: b < 16 && 0 != b && OneBitApart(0, b) && 0 in Adj4(b)
    ensures forall k: nat | k < 4 :: FlipBit(0, k) in Adj4(0) || Adj4Gap(0, FlipBit(0, k))
  {
  }

  lemma Adj4Row1()
    ensures Distinct(Adj4(1))
    ensures 3 <= |Adj4(1)| <= 4
    ensures forall b | b in Adj4(1) :: b < 16 && 1 != b && OneBitApart(1, b) && 1 in Adj4(b)
    ensures forall k: nat | k < 4 :: FlipBit(1, k) in Adj4(1) || Adj4Gap(1, FlipBit(1, k))
  {
  }

  lemma Adj4Row2()
    ensures Distinct(Adj4(2))
    ensures 3 <= |Adj4(2)| <= 4
    ensures forall b | b in Adj4(2) :: b < 16 && 2 != b && OneBitApart(2, b) && 2 in Adj4(b)
    ensures forall k: nat | k < 4 :: FlipBit(2, k) in Adj4(2) || Adj4Gap(2, FlipBit(2, k))
  {
  }

  lemma Adj4Row3()
    ensures Distinct(Adj4(3))
    ensures 3 <= |Adj4(3)| <= 4
    ensures forall b | b in Adj4(3) :: b < 16 && 3 != b && OneBitApart(3, b) && 3 in Adj4(b)
    ensures forall k: nat | k < 4 :: FlipBit(3, k) in Adj4(3) || Adj4Gap(3, FlipBit(3, k))
  {
  }

  lemma Adj4Row4()
    ensures Distinct(Adj4(4))
    ensures 3 <= |Adj4(4)| <= 4
    ensures forall b | b in Adj4(4) :: b < 16 && 4 != b && OneBitApart(4, b) && 4 in Adj4(b)
    ensures forall k: nat | k < 4 :: FlipBit(4, k) in Adj4(4) || Adj4Gap(4, FlipBit(4, k))
  {
  }

  lemma Adj4Row5()
    ensures Distinct(Adj4(5))
    ensures 3 <= |Adj4(5)| <= 4
    ensures forall b | b in Adj4(5) :: b < 16 && 5 != b && OneBitApart(5, b) && 5 in Adj4(b)
    ensures forall k: nat | k < 4 :: FlipBit(5, k) in Adj4(5) || Adj4Gap(5, FlipBit(5, k))
  {
  }

  lemma Adj4Row6()
    ensures Distinct(Adj4(6))
    ensures 3 <= |Adj4(6)| <= 4
    ensures forall b | b in Adj4(6) :: b < 16 && 6 != b && OneBitApart(6, b) && 6 in Adj4(b)
    ensures forall k: nat | k < 4 :: FlipBit(6, k) in Adj4(6) || Adj4Gap(6, FlipBit(6, k))
  {
  }

  lemma Adj4Row7()
    ensures Distinct(Adj4(7))
    ensures 3 <= |Adj4(7)| <= 4
    ensures forall b | b in Adj4(7) :: b < 16 && 7 != b && OneBitApart(7, b) && 7 in Adj4(b)
    ensures forall k: nat | k < 4 :: FlipBit(7, k) in Adj4(7) || Adj4Gap(7, FlipBit(7, k))
  {
  }

  lemma Adj4Row8()
    ensures Distinct(Adj4(8))
    ensures 3 <= |Adj4(8)| <= 4
    ensures forall b | b in Adj4(8) :: b < 16 && 8 != b && OneBitApart(8, b) && 8 in Adj4(b)
    ensures forall k: nat | k < 4 :: FlipBit(8, k) in Adj4(8) || Adj4Gap(8, FlipBit(8, k))
  {
  }

  lemma Adj4Row9()
    ensures Distinct(Adj4(9))
    ensures 3 <= |Adj4(9)| <= 4
    ensures forall b | b in Adj4(9) :: b < 16 && 9 != b && OneBitApart(9, b) && 9 in Adj4(b)
    ensures forall k: nat | k < 4 :: FlipBit(9, k) in Adj4(9) || Adj4Gap(9, FlipBit(9, k))
  {
  }

  lemma Adj4Row10()
    ensures Distinct(Adj4(10))
    ensures 3 <= |Adj4(10)| <= 4
    ensures forall b | b in Adj4(10) :: b < 16 && 10 != b && OneBitApart(10, b) && 10 in Adj4(b)
    ensures forall k: nat | k < 4 :: FlipBit(10, k) in Adj4(10) || Adj4Gap(10, FlipBit(10, k))
  {
  }

  lemma Adj4Row11()
    ensures Distinct(Adj4(11))
    ensures 3 <= |Adj4(11)| <= 4
    ensures forall b | b in Adj4(11) :: b < 16 && 11 != b && OneBitApart(11, b) && 11 in Adj4(b)
    ensures forall k: nat | k < 4 :: FlipBit(11, k) in Adj4(11) || Adj4Gap(11, FlipBit(11, k))
  {
  }

  lemma Adj4Row12()
    ensures Distinct(Adj4(12))
    ensures 3 <= |Adj4(12)| <= 4
    ensures forall b | b in Adj4(12) :: b < 16 && 12 != b && OneBitApart(12, b) && 12 in Adj4(b)
    ensures forall k: nat | k < 4 :: FlipBit(12, k) in Adj4(12) || Adj4Gap(12, FlipBit(12, k))
  {
  }

  lemma Adj4Row13()
    ensures Distinct(Adj4(13))
    ensures 3 <= |Adj4(13)| <= 4
    ensures forall b | b in Adj4(13) :: b < 16 && 13 != b && OneBitApart(13, b) && 13 in Adj4(b)
    ensures forall k: nat | k < 4 :: FlipBit(13, k) in Adj4(13) || Adj4Gap(13, FlipBit(13, k))
  {
  }

  lemma Adj4Row14()
    ensures Distinct(Adj4(14))
    ensures 3 <= |Adj4(14)| <= 4
    ensures forall b | b in Adj4(14) :: b < 16 && 14 != b && OneBitApart(14, b) && 14 in Adj4(b)
    ensures forall k: nat | k < 4 :: FlipBit(14, k) in Adj4(14) || Adj4Gap(14, FlipBit(14, k))
  {
  }

  lemma Adj4Row15()
    ensures Distinct(Adj4(15))
    ensures 3 <= |Adj4(15)| <= 4
    ensures forall b | b in Adj4(15) :: b < 16 && 15 != b && OneBitApart(15, b) && 15 in Adj4(b)
    ensures forall k: nat | k < 4 :: FlipBit(15, k) in Adj4(15) || Adj4Gap(15, FlipBit(15, k))
  {
  }

  /** Each gap is a genuine one-bit pair that the table does not list, so
      the 4-variable table is not complete; the row pair 4-6 is listed. */
  lemma Adj4Gaps()
    ensures forall a: nat, b: nat | Adj4Gap(a, b) :: OneBitApart(a, b) && b !in Adj4(a)
    ensures 6 in Adj4(4) && 4 in Adj4(6)
  {
    assert OneBitApart(0, 2) && OneBitApart(2, 0);
    assert OneBitApart(8, 10) && OneBitApart(10, 8);
    assert OneBitApart(12, 14) && OneBitApart(14, 12);
  }

  /** The 4-variable table is well formed and lists every single-bit flip
      except the three row wrap-around gaps. */
  lemma Adj4WellFormed()
    ensures WellFormedTable(Adj4, 16)
    ensures forall a: nat, k: nat | a < Pow2(4) && k < 4 :: FlipBit(a, k) in Adj4(a) || Adj4Gap(a, FlipBit(a, k))
    ensures forall a | a < 16 :: 3 <= |Adj4(a)| <= 4
  {
    assert Pow2(4) == 16;
    forall a: nat | a < 16
      ensures RowWellFormed(Adj4, a, 16) && 3 <= |Adj4(a)| <= 4
      ensures forall k: nat | k < 4 :: FlipBit(a, k) in Adj4(a) || Adj4Gap(a, FlipBit(a, k))
    {

      if a == 0 {
        Adj4Row0();
      } else if a == 1 {
        Adj4Row1();
      } else if a == 2 {
        Adj4Row2();
      } else if a == 3 {
        Adj4Row3();
      } else if a == 4 {
        Adj4Row4();
      } else if a == 5 {
        Adj4Row5();
      } else if a == 6 {
        Adj4Row6();
      } else if a == 7 {
        Adj4Row7();
      } else if a == 8 {
        Adj4Row8();
      } else if a == 9 {
        Adj4Row9();
      } else if a == 10 {
        Adj4Row10();
      } else if a == 11 {
        Adj4Row11();
      } else if a == 12 {
        Adj4Row12();
      } else if a == 13 {
        Adj4Row13();
      } else if a == 14 {
        Adj4Row14();
      } else if a == 15 {
        Adj4Row15();
      }
    }
  }
}

=== FILE: bfs.dfy ===
/** `findGroupBFS`: grow a group of 1-valued cells breadth-first from a
    start cell over an adjacency table, stopping at the target size or when
    the queue runs dry. The functional definition follows the queue loop
    step by step; `FindGroupBfsQueue` is the loop itself. */
module Bfs {
  import opened Bits
  import opened Seqs
  import opened Grid

  /** Cell `j` of `s` is a table neighbour of an earlier cell. */
  ghost predicate LinkedAt(adj: nat -> seq<nat>, s: seq<nat>, j: nat)
    requires j < |s|
  {
    exists i | 0 <= i < j :: s[j] in adj(s[i])
  }

  /** Every cell after the first is a table neighbour of an earlier cell. */
  ghost predicate Linked(adj: nat -> seq<nat>, s: seq<nat>)
  {
    forall j: nat | 0 < j < |s| :: LinkedAt(adj, s, j)
  }

  /** No 1-valued table neighbour of a cell of `s` lies outside `s`. */
  ghost predicate Closed(grid: seq<bool>, adj: nat -> seq<nat>, s: seq<nat>)
  {
    forall c, nb | c in s && nb in adj(c) && IsOne(grid, nb) :: nb in s
  }

  /** One pass over the table row of the cell taken from the queue: the
      unvisited 1-cells it adds to `visited` (and to the queue), in row
      order, given the cells `seen` so far. */
  function Discover(grid: seq<bool>, nbrs: seq<nat>, target: nat, seen: seq<nat>): (added: seq<nat>)
    ensures |seen| + |added| <= Max(|seen|, target)
    ensures forall k | 0 <= k < |added| :: added[k] in nbrs && IsOne(grid, added[k]) && added[k] !in seen
    ensures Distinct(seen) ==> Distinct(seen + added)
    ensures |seen| + |added| >= target || forall nb | nb in nbrs && IsOne(grid, nb) :: nb in seen + added
    decreases |nbrs|
  {
    if nbrs == [] then []
    else
      var nb := nbrs[0];
      if nb !in seen && IsOne(grid, nb) && |seen| < target then
        var rest := Discover(grid, nbrs[1..], target, seen + [nb]);
        assert seen + ([nb] + rest) == seen + [nb] + rest;
        [nb] + rest
      else
        Discover(grid, nbrs[1..], target, seen)
  }

  /** The search loop, which runs while the queue is non-empty and fewer
      than `target` cells are visited, from the state (`visited`, `queue`). */
  function Grow(grid: seq<bool>, adj: nat -> seq<nat>, target: nat, visited: seq<nat>, queue: seq<nat>): seq<nat>
    decreases if |visited| <= target then target - |visited| else 0, |queue|
  {
    if queue == [] || |visited| >= target then visited
    else
      var added := Discover(grid, adj(queue[0]), target, visited);
      Grow(grid, adj, target, visited + added, queue[1..] + added)
  }

  /** The loop state the queue loop maintains: the queue is the
      not-yet-expanded tail of `visited`, and every expanded cell has all of
      its 1-valued neighbours visited unless the target was reached. */
  ghost predicate GrowState(grid: seq<bool>, adj: nat -> seq<nat>, target: nat, visited: seq<nat>, queue: seq<nat>)
  {
    && |queue| <= |visited|
    && queue == visited[|visited| - |queue|..]
    && Distinct(visited)
    && AllOnes(grid, visited)
    && Linked(adj, visited)
    && (|visited| >= target ||
        forall p, nb | p in visited[..|visited| - |queue|] && nb in adj(p) && IsOne(grid, nb) :: nb in visited)
  }

  lemma LinkedExtend(adj: nat -> seq<nat>, visited: seq<nat>, i0: nat, added: seq<nat>)
    requires Linked(adj, visited)
    requires i0 < |visited|
    requires forall k | 0 <= k < |added| :: added[k] in adj(visited[i0])
    ensures Linked(adj, visited + added)
  {
    var v' := visited + added;
    forall j: nat | 0 < j < |v'|
      ensures LinkedAt(adj, v', j)
    {
      if j < |visited| {
        assert LinkedAt(adj, visited, j);
        var i :| 0 <= i < j && visited[j] in adj(visited[i]);
        assert v'[i] == visited[i];
      } else {
        assert v'[j] == added[j - |visited|] && v'[i0] == visited[i0];
        assert v'[j] in adj(v'[i0]);
      }
    }
    assert Linked(adj, v');
  }

  lemma GrowStep(grid: seq<bool>, adj: nat -> seq<nat>, target: nat, visited: seq<nat>, queue: seq<nat>)
    requires GrowState(grid, adj, target, visited, queue)
    requires queue != [] && |visited| < target
    ensures var added := Discover(grid, adj(queue[0]), target, visited);
            GrowState(grid, adj, target, visited + added, queue[1..] + added)
  {
    var current := queue[0];
    var added := Discover(grid, adj(current), target, visited);
    var v' := visited + added;
    var q' := queue[1..] + added;
    var i0 := |visited| - |queue|;
    assert visited[i0] == current;
    assert q' == v'[|v'| - |q'|..];
    assert v'[..|v'| - |q'|] == visited[..i0] + [current];
    LinkedExtend(adj, visited, i0, added);
    assert AllOnes(grid, v');
    if |v'| < target {
      forall p, nb | p in v'[..|v'| - |q'|] && nb in adj(p) && IsOne(grid, nb)
        ensures nb in v'
      {
        if p == current {
          assert nb in visited + added;
        } else {
          assert p in visited[..i0];
        }
      }
    }
  }

  lemma {:induction false} GrowProperties(grid: seq<bool>, adj: nat -> seq<nat>, target: nat, visited: seq<nat>, queue: seq<nat>)
    requires GrowState(grid, adj, target, visited, queue)
    ensures var r := Grow(grid, adj, target, visited, queue);
            && visited <= r
            && |r| <= Max(|visited|, target)
            && Distinct(r) && AllOnes(grid, r) && Linked(adj, r)
            && (|r| < target ==> Closed(grid, adj, r))
    decreases if |visited| <= target then target - |visited| else 0, |queue|
  {
    if queue == [] {
      assert visited[..|visited| - |queue|] == visited;
    } else if |visited| >= target {
    } else {
      var added := Discover(grid, adj(queue[0]), target, visited);
      GrowStep(grid, adj, target, visited, queue);
      GrowProperties(grid, adj, target, visited + added, queue[1..] + added);
    }
  }

  /** `findGroupBFS(grid, start, targetSize, adjacency)`. */
  function FindGroupBfs(grid: seq<bool>, start: nat, targetSize: nat, adj: nat -> seq<nat>): (cells: seq<nat>)
    ensures !IsOne(grid, start) ==> cells == []
    ensures IsOne(grid, start) ==>
              && |cells| >= 1 && cells[0] == start
              && |cells| <= Max(1, targetSize)
              && Distinct(cells) && AllOnes(grid, cells)
              && Linked(adj, cells)
              && (|cells| < targetSize ==> Closed(grid, adj, cells))
  {
    if !IsOne(grid, start) then []
    else
      assert [start][1..1] == [];
      GrowProperties(grid, adj, targetSize, [start], [start]);
      Grow(grid, adj, targetSize, [start], [start])
  }

  /** One pass of the inner loop: every unvisited 1-valued neighbour, while
      `visited` is below the target size, joins `visited` and the queue. */
  method VisitNeighbours(grid: seq<bool>, nbrs: seq<nat>, targetSize: nat, visited: seq<nat>, queue: seq<nat>)
    returns (visited': seq<nat>, queue': seq<nat>)
    ensures visited' == visited + Discover(grid, nbrs, targetSize, visited)
    ensures queue' == queue + Discover(grid, nbrs, targetSize, visited)
  {
    visited', queue' := visited, queue;
    var k := 0;
    while k < |nbrs|
      invariant 0 <= k <= |nbrs|
      invariant |visited| <= |visited'|
      invariant visited' + Discover(grid, nbrs[k..], targetSize, visited') == visited + Discover(grid, nbrs, targetSize, visited)
      invariant queue' == queue + visited'[|visited|..]
    {
      var neighbor := nbrs[k];
      assert nbrs[k..][0] == neighbor && nbrs[k..][1..] == nbrs[k + 1..];
      if neighbor !in visited' && IsOne(grid, neighbor) && |visited'| < targetSize {
        ghost var rest := Discover(grid, nbrs[k + 1..], targetSize, visited' + [neighbor]);
        assert Discover(grid, nbrs[k..], targetSize, visited') == [neighbor] + rest;
        assert visited' + ([neighbor] + rest) == (visited' + [neighbor]) + rest;
        visited' := visited' + [neighbor];
        queue' := queue' + [neighbor];
      } else {
        assert Discover(grid, nbrs[k..], targetSize, visited') == Discover(grid, nbrs[k + 1..], targetSize, visited');
      }
      k := k + 1;
    }
    assert nbrs[k..] == [];
  }

  /** The queue loop of `findGroupBFS`, with `visited` kept in insertion
      order, the order in which the result lists them. */
  method FindGroupBfsQueue(grid: seq<bool>, start: nat, targetSize: nat, adj: nat -> seq<nat>) returns (cells: seq<nat>)
    ensures cells == FindGroupBfs(grid, start, targetSize, adj)
  {
    var visited := [start];
    var queue := [start];
    if !IsOne(grid, start) {
      return [];
    }
    while queue != [] && |visited| < targetSize
      invariant |visited| <= Max(1, targetSize)
      invariant Grow(grid, adj, targetSize, visited, queue) == Grow(grid, adj, targetSize, [start], [start])
      decreases if |visited| <= targetSize then targetSize - |visited| else 0, |queue|
    {
      var current := queue[0];
      ghost var added := Discover(grid, adj(current), targetSize, visited);
      visited, queue := VisitNeighbours(grid, adj(current), targetSize, visited, queue[1..]);
    }
    cells := visited;
  }
}

=== FILE: bits.dfy ===
/** Powers of two, the JavaScript `&` operator on non-negative integers,
    and the power-of-two test the group finder relies on. */
module Bits {

  function Max(a: nat, b: nat): nat
  {
    if a >= b then a else b
  }

  /** 2^k. */
  function Pow2(k: nat): (r: nat)
    ensures r >= 1
  {
    if k == 0 then 1 else 2 * Pow2(k - 1)
  }

  /** A power of two, defined by repeated halving. */
  predicate IsPow2(k: nat)
    decreases k
  {
    k == 1 || (k > 1 && k % 2 == 0 && IsPow2(k / 2))
  }

  /** Bitwise AND of two non-negative integers, bit by bit from the least
      significant end (JavaScript `a & b` for operands below 2^31). */
  function BitAnd(a: nat, b: nat): nat
    decreases a
  {
    if a == 0 || b == 0 then 0
    else 2 * BitAnd(a / 2, b / 2) + (if a % 2 == 1 && b % 2 == 1 then 1 else 0)
  }

  lemma {:induction false} BitAndSelf(a: nat)
    ensures BitAnd(a, a) == a
    decreases a
  {
    if a != 0 {
      BitAndSelf(a / 2);
    }
  }

  /** The test "positive, and sharing no bit with its predecessor" holds
      exactly for the powers of two. */
  lemma {:induction false} BitAndTestIsPow2(s: nat)
    ensures (s > 0 && BitAnd(s, s - 1) == 0) <==> IsPow2(s)
    decreases s
  {
    if s <= 1 {
    } else if s % 2 == 0 {
      // s = 2m and s - 1 = 2(m - 1) + 1, so s & (s - 1) = 2 * (m & (m - 1))
      var m := s / 2;
      assert (s - 1) / 2 == m - 1;
      assert BitAnd(s, s - 1) == 2 * BitAnd(m, m - 1);
      BitAndTestIsPow2(m);
    } else {
      // s = 2m + 1 and s - 1 = 2m, so s & (s - 1) = 2 * (m & m) = 2m > 0
      var m := s / 2;
      assert (s - 1) / 2 == m;
      BitAndSelf(m);
      assert BitAnd(s, s - 1) == 2 * m;
    }
  }

  lemma {:induction false} Pow2IsPow2(k: nat)
    ensures IsPow2(Pow2(k))
  {
    if k > 0 {
      Pow2IsPow2(k - 1);
      assert Pow2(k) / 2 == Pow2(k - 1);
    }
  }

  lemma {:induction false} Pow2Monotone(j: nat, k: nat)
    requires j <= k
    ensures Pow2(j) <= Pow2(k)
    decreases k
  {
    if j < k {
      Pow2Monotone(j, k - 1);
    }
  }
}

=== FILE: cover.dfy ===
/** The greedy cover `findEssentialPrimeImplicants`: the candidate groups,
    largest first, are scanned once; a group is kept when it holds a cell
    not yet covered, and the scan stops as soon as the number of covered
    cells reaches the number of minterms. */
module CoverSelector {
  import opened Seqs
  import opened Grid

  /** The sort key that puts larger groups first. */
  function BySizeDescending(g: Group): int
  {
    -|g.cells|
  }

  /** The cells of a group not yet covered, in the group's order. */
  function NewCoverage(cells: seq<nat>, covered: set<nat>): (uncovered: seq<nat>)
    ensures forall c | c in uncovered :: c in cells && c !in covered
    ensures forall c | c in cells && c !in covered :: c in uncovered
    ensures IsSubsequence(uncovered, cells)
    decreases |cells|
  {
    if cells == [] then []
    else if cells[0] !in covered then [cells[0]] + NewCoverage(cells[1..], covered)
    else NewCoverage(cells[1..], covered)
  }

  /** The loop over `sortedGroups`, with `covered` the cells covered so far
      and `target` the value of `minterms.length`. */
  function Select(groups: seq<Group>, target: nat, covered: set<nat>): seq<Group>
    decreases |groups|
  {
    if groups == [] then []
    else
      var g := groups[0];
      if |NewCoverage(g.cells, covered)| > 0 then
        var covered' := covered + CellSet(g.cells);
        if |covered'| == target then [g] else [g] + Select(groups[1..], target, covered')
      else Select(groups[1..], target, covered)
  }

  lemma CellsOfCons(g: Group, rest: seq<Group>)
    ensures CellsOf([g] + rest) == CellSet(g.cells) + CellsOf(rest)
  {
    assert ([g] + rest)[1..] == rest;
  }

  lemma CellsOfPrefix(g: Group, rest: seq<Group>, k: nat)
    requires 0 < k <= |rest| + 1
    ensures CellsOf(([g] + rest)[..k]) == CellSet(g.cells) + CellsOf(rest[..k - 1])
  {
    assert ([g] + rest)[..k] == [g] + rest[..k - 1];
    CellsOfCons(g, rest[..k - 1]);
  }

  /** The scan only keeps groups of the list, in the list's order. */
  lemma {:induction false} SelectSubsequence(groups: seq<Group>, target: nat, covered: set<nat>)
    ensures IsSubsequence(Select(groups, target, covered), groups)
    decreases |groups|
  {
    if groups != [] {
      var g := groups[0];
      var sel := Select(groups, target, covered);
      if |NewCoverage(g.cells, covered)| > 0 {
        var covered' := covered + CellSet(g.cells);
        if |covered'| == target {
          assert sel == [g] && sel[1..] == [];
          assert IsSubsequence([], groups[1..]) by {
            EmptySubsequence(groups[1..]);
          }
        } else {
          SelectSubsequence(groups[1..], target, covered');
          assert sel[0] == g && sel[1..] == Select(groups[1..], target, covered');
        }
      } else {
        SelectSubsequence(groups[1..], target, covered);
      }
    }
  }

  lemma {:induction false} EmptySubsequence<T>(s: seq<T>)
    ensures IsSubsequence([], s)
    decreases |s|
  {
    if s != [] {
      EmptySubsequence(s[1..]);
    }
  }

  /** Moving the first kept group into the covered set. */
  lemma PrefixStep(g: Group, rest: seq<Group>, covered: set<nat>, k: nat)
    requires 0 < k <= |rest|
    ensures ([g] + rest)[k] == rest[k - 1]
    ensures covered + CellsOf(([g] + rest)[..k]) == (covered + CellSet(g.cells)) + CellsOf(rest[..k - 1])
  {
    CellsOfPrefix(g, rest, k);
  }

  ghost predicate AddsNewAt(sel: seq<Group>, covered: set<nat>, k: nat)
    requires k < |sel|
  {
    exists c | c in sel[k].cells :: c !in covered + CellsOf(sel[..k])
  }

  /** Every kept group covered at least one cell that neither the cells
      covered on entry nor the groups kept before it covered. */
  lemma {:induction false} SelectAddsNew(groups: seq<Group>, target: nat, covered: set<nat>)
    ensures var sel := Select(groups, target, covered);
            forall k | 0 <= k < |sel| :: AddsNewAt(sel, covered, k)
    decreases |groups|
  {
    if groups != [] {
      var g := groups[0];
      var sel := Select(groups, target, covered);
      if |NewCoverage(g.cells, covered)| > 0 {
        var covered' := covered + CellSet(g.cells);
        var c := NewCoverage(g.cells, covered)[0];
        assert AddsNewAt(sel, covered, 0) by {
          assert sel[0] == g && sel[..0] == [];
          assert c in sel[0].cells && c !in covered + CellsOf(sel[..0]);
        }
        if |covered'| != target {
          var rest := Select(groups[1..], target, covered');
          assert sel == [g] + rest;
          SelectAddsNew(groups[1..], target, covered');
          assert forall k | 0 <= k < |Select(groups[1..], target, covered')| :: AddsNewAt(Select(groups[1..], target, covered'), covered', k);
          forall k | 0 < k < |sel|
            ensures AddsNewAt(sel, covered, k)
          {
            assert k - 1 < |rest|;
            assert AddsNewAt(rest, covered', k - 1);
            SelectAddsNewStep(g, rest, covered, covered', k);
          }
        }
      } else {
        assert sel == Select(groups[1..], target, covered);
        SelectAddsNew(groups[1..], target, covered);
      }
    }
  }

  lemma SelectAddsNewStep(g: Group, rest: seq<Group>, covered: set<nat>, covered': set<nat>, k: nat)
    requires covered' == covered + CellSet(g.cells)
    requires 0 < k <= |rest| && AddsNewAt(rest, covered', k - 1)
    ensures AddsNewAt([g] + rest, covered, k)
  {
    PrefixStep(g, rest, covered, k);
    var c :| c in rest[k - 1].cells && c !in covered' + CellsOf(rest[..k - 1]);
    assert c in ([g] + rest)[k].cells;
  }

  /** The scan stops at the first kept group after which `target` cells are
      covered: no earlier kept group reaches it. */
  lemma {:induction false} SelectStopsFirst(groups: seq<Group>, target: nat, covered: set<nat>)
    ensures var sel := Select(groups, target, covered);
            forall k | 0 < k < |sel| :: |covered + CellsOf(sel[..k])| != target
    decreases |groups|
  {
    if groups != [] {
      var g := groups[0];
      var sel := Select(groups, target, covered);
      if |NewCoverage(g.cells, covered)| > 0 {
        var covered' := covered + CellSet(g.cells);
        if |covered'| != target {
          var rest := Select(groups[1..], target, covered');
          assert sel == [g] + rest;
          SelectStopsFirst(groups[1..], target, covered');
          assert forall k | 0 < k < |Select(groups[1..], target, covered')| ::
                   |covered' + CellsOf(Select(groups[1..], target, covered')[..k])| != target;
          forall k | 0 < k < |sel|
            ensures |covered + CellsOf(sel[..k])| != target
          {
            PrefixStep(g, rest, covered, k);
            if k == 1 {
              assert rest[..0] == [];
              assert CellsOf(rest[..0]) == {};
            } else {
              assert |covered' + CellsOf(rest[..k - 1])| != target;
            }
          }
        }
      } else {
        assert sel == Select(groups[1..], target, covered);
        SelectStopsFirst(groups[1..], target, covered);
      }
    }
  }

  /** Each kept group adds at least one covered cell. */
  lemma {:induction false} SelectGrowth(groups: seq<Group>, target: nat, covered: set<nat>)
    ensures |covered + CellsOf(Select(groups, target, covered))| >= |covered| + |Select(groups, target, covered)|
    decreases |groups|
  {
    if groups != [] {
      var g := groups[0];
      var sel := Select(groups, target, covered);
      if |NewCoverage(g.cells, covered)| > 0 {
        var covered' := covered + CellSet(g.cells);
        var c := NewCoverage(g.cells, covered)[0];
        assert c in covered' - covered;
        assert |covered'| >= |covered| + 1 by {
          assert covered' == covered + {c} + covered';
          assert |covered + {c}| == |covered| + 1;
          SubsetCard(covered + {c}, covered');
        }
        var rest := if |covered'| == target then [] else Select(groups[1..], target, covered');
        assert sel == [g] + rest;
        CellsOfCons(g, rest);
        assert covered + CellsOf(sel) == covered' + CellsOf(rest);
        if |covered'| != target {
          SelectGrowth(groups[1..], target, covered');
        } else {
          assert CellsOf(rest) == {};
        }
      } else {
        SelectGrowth(groups[1..], target, covered);
      }
    }
  }

  /** When every cell the groups hold lies in a universe of `target` cells,
      the kept groups cover exactly what all the groups cover. */
  lemma {:induction false} SelectCovers(groups: seq<Group>, target: nat, covered: set<nat>, universe: set<nat>)
    requires |universe| == target && covered <= universe && CellsOf(groups) <= universe
    ensures covered + CellsOf(Select(groups, target, covered)) == covered + CellsOf(groups)
    decreases |groups|
  {
    if groups != [] {
      var g := groups[0];
      var sel := Select(groups, target, covered);
      CellsOfCons(g, groups[1..]);
      assert groups == [g] + groups[1..];
      if |NewCoverage(g.cells, covered)| > 0 {
        var covered' := covered + CellSet(g.cells);
        if |covered'| == target {
          assert sel == [g];
          CellsOfCons(g, []);
          SubsetCard(covered', universe);
          assert covered' == universe by {
            if exists u | u in universe :: u !in covered' {
              var u :| u in universe && u !in covered';
              SubsetCard(covered' + {u}, universe);
            }
          }
        } else {
          var rest := Select(groups[1..], target, covered');
          assert sel == [g] + rest;
          CellsOfCons(g, rest);
          SelectCovers(groups[1..], target, covered', universe);
        }
      } else {
        assert CellSet(g.cells) <= covered;
        SelectCovers(groups[1..], target, covered, universe);
      }
    }
  }

  /** The scan has stopped once a kept group brought the covered count to
      `target`. */
  predicate Stopped(kept: seq<Group>, target: nat, covered: set<nat>)
  {
    kept != [] && |covered + CellsOf(kept)| == target
  }

  /** `g` holds a cell outside `covered`. */
  predicate AddsCell(g: Group, covered: set<nat>)
  {
    exists c | c in g.cells :: c !in covered
  }

  /** The loop read one iteration at a time: the groups kept after looking
      at every group of `groups`, in order. Each iteration keeps its group
      iff the scan has not stopped and the group adds a cell to what the
      groups kept so far cover. */
  function Greedy(groups: seq<Group>, target: nat, covered: set<nat>): seq<Group>
    decreases |groups|
  {
    if groups == [] then []
    else
      var before := Greedy(groups[..|groups| - 1], target, covered);
      var g := groups[|groups| - 1];
      if !Stopped(before, target, covered) && AddsCell(g, covered + CellsOf(before)) then before + [g]
      else before
  }

  lemma NewCoverageAddsCell(g: Group, covered: set<nat>)
    ensures |NewCoverage(g.cells, covered)| > 0 <==> AddsCell(g, covered)
  {
    var uncovered := NewCoverage(g.cells, covered);
    if |uncovered| > 0 {
      assert uncovered[0] in uncovered;
    }
  }

  /** Scanning one more group at the end extends the scan as one iteration
      of the loop does. */
  lemma {:induction false} SelectSnoc(s: seq<Group>, g: Group, target: nat, covered: set<nat>)
    ensures var before := Select(s, target, covered);
            Select(s + [g], target, covered) ==
              if !Stopped(before, target, covered) && AddsCell(g, covered + CellsOf(before)) then before + [g]
              else before
    decreases |s|
  {
    if s == [] {
      assert s + [g] == [g];
      assert CellsOf([]) == {};
      assert covered + {} == covered;
      NewCoverageAddsCell(g, covered);
    } else {
      var h := s[0];
      assert (s + [g])[0] == h && (s + [g])[1..] == s[1..] + [g];
      NewCoverageAddsCell(h, covered);
      if |NewCoverage(h.cells, covered)| > 0 {
        var covered' := covered + CellSet(h.cells);
        if |covered'| == target {
          CellsOfCons(h, []);
          assert [h] + [] == [h];
          assert Select(s, target, covered) == [h];
          assert Stopped([h], target, covered);
        } else {
          var rest := Select(s[1..], target, covered');
          assert Select(s, target, covered) == [h] + rest;
          assert Select(s + [g], target, covered) == [h] + Select(s[1..] + [g], target, covered');
          SelectSnoc(s[1..], g, target, covered');
          KeptFirst(h, rest, g, target, covered);
        }
      } else {
        SelectSnoc(s[1..], g, target, covered);
      }
    }
  }

  /** Moving a kept first group into the covered set changes neither the
      stop test nor the cells a later group must add to. */
  lemma KeptFirst(h: Group, rest: seq<Group>, g: Group, target: nat, covered: set<nat>)
    requires |covered + CellSet(h.cells)| != target
    ensures var covered' := covered + CellSet(h.cells);
            && covered + CellsOf([h] + rest) == covered' + CellsOf(rest)
            && (Stopped([h] + rest, target, covered) <==> Stopped(rest, target, covered'))
            && ([h] + rest) + [g] == [h] + (rest + [g])
  {
    CellsOfCons(h, rest);
    if rest == [] {
      assert CellsOf(rest) == {};
    }
  }

  /** The recursive scan keeps the same groups as the loop read one
      iteration at a time. */
  lemma {:induction false} SelectIsGreedy(groups: seq<Group>, target: nat, covered: set<nat>)
    ensures Select(groups, target, covered) == Greedy(groups, target, covered)
    decreases |groups|
  {
    if groups != [] {
      var s := groups[..|groups| - 1];
      var g := groups[|groups| - 1];
      assert groups == s + [g];
      SelectIsGreedy(s, target, covered);
      SelectSnoc(s, g, target, covered);
    }
  }

  /** What the loop has kept after `i` iterations is a prefix of what it
      keeps in the end. */
  lemma {:induction false} GreedyPrefixes(groups: seq<Group>, target: nat, covered: set<nat>)
    ensures forall i | 0 <= i <= |groups| :: Greedy(groups[..i], target, covered) <= Greedy(groups, target, covered)
    decreases |groups|
  {
    if groups != [] {
      var s := groups[..|groups| - 1];
      GreedyPrefixes(s, target, covered);
      var all := Greedy(groups, target, covered);
      assert Greedy(s, target, covered) <= all;
      forall i | 0 <= i <= |groups|
        ensures Greedy(groups[..i], target, covered) <= all
      {
        if i < |groups| {
          assert groups[..i] == s[..i];
          var p := Greedy(s[..i], target, covered);
          assert p <= Greedy(s, target, covered);
          PrefixTrans(p, Greedy(s, target, covered), all);
        } else {
          assert groups[..i] == groups;
        }
      }
    }
  }

  /** Iteration `i` keeps `groups[i]` iff the scan has not stopped and the
      group adds a cell to what the groups kept before it cover; otherwise
      it keeps nothing. */
  lemma GreedyKeepsIff(groups: seq<Group>, target: nat, covered: set<nat>, i: nat)
    requires i < |groups|
    ensures var before := Greedy(groups[..i], target, covered);
            var after := Greedy(groups[..i + 1], target, covered);
            && (after == before || after == before + [groups[i]])
            && (after == before + [groups[i]] <==>
                  !Stopped(before, target, covered) && AddsCell(groups[i], covered + CellsOf(before)))
  {
    assert groups[..i + 1][..i] == groups[..i];
  }

  /** `findEssentialPrimeImplicants`: the greedy cover of the candidates,
      scanned largest first (stably, so equal sizes keep their order). */
  function FindEssentialPrimeImplicants(primeImplicants: seq<Group>, minterms: seq<nat>): (selected: seq<Group>)
    ensures IsSubsequence(selected, SortBy(primeImplicants, BySizeDescending))
    ensures forall k | 0 <= k < |selected| :: selected[k] in primeImplicants
    ensures forall j, k | 0 <= j < k < |selected| :: |selected[j].cells| >= |selected[k].cells|
    ensures forall k | 0 <= k < |selected| :: AddsNewAt(selected, {}, k)
    ensures forall k | 0 < k < |selected| :: |CellsOf(selected[..k])| != |minterms|
    ensures CellsOf(primeImplicants) == CellSet(minterms) && Distinct(minterms) ==>
              CellsOf(selected) == CellSet(minterms) && |selected| <= |minterms|
    ensures selected == Greedy(SortBy(primeImplicants, BySizeDescending), |minterms|, {})
    ensures var sorted := SortBy(primeImplicants, BySizeDescending);
            forall i | 0 <= i < |sorted| ::
              && Greedy(sorted[..i], |minterms|, {}) <= selected
              && (Greedy(sorted[..i + 1], |minterms|, {}) == Greedy(sorted[..i], |minterms|, {}) + [sorted[i]] <==>
                    && !Stopped(Greedy(sorted[..i], |minterms|, {}), |minterms|, {})
                    && AddsCell(sorted[i], CellsOf(Greedy(sorted[..i], |minterms|, {}))))
  {
    var sorted := SortBy(primeImplicants, BySizeDescending);
    var selected := Select(sorted, |minterms|, {});
    SelectSubsequence(sorted, |minterms|, {});
    SelectedInOrder(primeImplicants, sorted, selected);
    SelectAddsNew(sorted, |minterms|, {});
    SelectStopsFirst(sorted, |minterms|, {});
    EmptyUnion(selected);
    ExactCover(primeImplicants, minterms, sorted, selected);
    SelectIsGreedy(sorted, |minterms|, {});
    GreedyPrefixes(sorted, |minterms|, {});
    forall i | 0 <= i < |sorted|
      ensures var before := Greedy(sorted[..i], |minterms|, {});
              Greedy(sorted[..i + 1], |minterms|, {}) == before + [sorted[i]] <==>
                !Stopped(before, |minterms|, {}) && AddsCell(sorted[i], CellsOf(before))
    {
      GreedyKeepsIff(sorted, |minterms|, {}, i);
      assert {} + CellsOf(Greedy(sorted[..i], |minterms|, {})) == CellsOf(Greedy(sorted[..i], |minterms|, {}));
    }
    selected
  }

  lemma EmptyUnion(sel: seq<Group>)
    ensures forall k | 0 <= k <= |sel| :: {} + CellsOf(sel[..k]) == CellsOf(sel[..k])
  {
  }

  /** The kept groups are candidates, largest first. */
  lemma SelectedInOrder(primeImplicants: seq<Group>, sorted: seq<Group>, selected: seq<Group>)
    requires sorted == SortBy(primeImplicants, BySizeDescending)
    requires IsSubsequence(selected, sorted)
    ensures forall k | 0 <= k < |selected| :: selected[k] in primeImplicants
    ensures forall j, k | 0 <= j < k < |selected| :: |selected[j].cells| >= |selected[k].cells|
  {
    SortBySorted(primeImplicants, BySizeDescending);
    SubsequenceMembers(selected, sorted);
    SubsequenceSorted(selected, sorted, BySizeDescending);
    SameMembers(sorted, primeImplicants);
    forall j, k | 0 <= j < k < |selected|
      ensures |selected[j].cells| >= |selected[k].cells|
    {
      assert BySizeDescending(selected[j]) <= BySizeDescending(selected[k]);
    }
  }

  /** When the candidates cover exactly the minterms, so do the kept
      groups, and there are no more of them than minterms. */
  lemma ExactCover(primeImplicants: seq<Group>, minterms: seq<nat>, sorted: seq<Group>, selected: seq<Group>)
    requires sorted == SortBy(primeImplicants, BySizeDescending)
    requires selected == Select(sorted, |minterms|, {})
    ensures CellsOf(primeImplicants) == CellSet(minterms) && Distinct(minterms) ==>
              CellsOf(selected) == CellSet(minterms) && |selected| <= |minterms|
  {
    if CellsOf(primeImplicants) == CellSet(minterms) && Distinct(minterms) {
      SortedCellsOf(primeImplicants, sorted);
      DistinctCard(minterms);
      SelectCovers(sorted, |minterms|, {}, CellSet(minterms));
      SelectGrowth(sorted, |minterms|, {});
      SubsetCard(CellsOf(selected), CellSet(minterms));
    }
  }

  /** Reordering the groups does not change the cells they cover. */
  lemma SortedCellsOf(groups: seq<Group>, sorted: seq<Group>)
    requires multiset(sorted) == multiset(groups)
    ensures CellsOf(sorted) == CellsOf(groups)
  {
    CellsOfMembers(sorted);
    CellsOfMembers(groups);
    forall c | c in CellsOf(sorted)
      ensures c in CellsOf(groups)
    {
      var k :| 0 <= k < |sorted| && c in sorted[k].cells;
      assert sorted[k] in multiset(groups);
    }
    forall c | c in CellsOf(groups)
      ensures c in CellsOf(sorted)
    {
      var k :| 0 <= k < |groups| && c in groups[k].cells;
      assert groups[k] in multiset(sorted);
    }
  }
}

=== FILE: grid.dfy ===
/** The bit grid a Karnaugh map is drawn from, and the groups of cells the
    minimiser forms on it. */
module Grid {
  import opened Bits
  import opened Seqs

  /** Reading `grid[i]` in JavaScript: an index past the end reads
      `undefined`, which is falsy. */
  predicate IsOne(grid: seq<bool>, i: nat)
  {
    i < |grid| && grid[i]
  }

  predicate AllOnes(grid: seq<bool>, cells: seq<nat>)
  {
    forall c | c in cells :: IsOne(grid, c)
  }

  /** A candidate prime implicant: the object `{ cells, size }`, whose
      `size` is always `cells.length`. */
  datatype Group = Group(cells: seq<nat>)

  /** The cells of a list, as a set. */
  function CellSet(cells: seq<nat>): set<nat>
  {
    set c | c in cells
  }

  lemma SubsetCard(a: set<nat>, b: set<nat>)
    requires a <= b
    ensures |a| <= |b|
  {
    assert b == a + (b - a);
  }

  /** A duplicate-free list has as many elements as its set. */
  lemma {:induction false} DistinctCard(s: seq<nat>)
    requires Distinct(s)
    ensures |CellSet(s)| == |s|
    decreases |s|
  {
    if s != [] {
      DistinctCard(s[1..]);
      assert CellSet(s) == {s[0]} + CellSet(s[1..]);
      assert s[0] !in CellSet(s[1..]);
    }
  }

  /** Every cell of every group. */
  function CellsOf(groups: seq<Group>): set<nat>
    decreases |groups|
  {
    if groups == [] then {}
    else CellSet(groups[0].cells) + CellsOf(groups[1..])
  }

  /** A cell is covered exactly when some group holds it. */
  lemma {:induction false} CellsOfMembers(groups: seq<Group>)
    ensures forall k, c | 0 <= k < |groups| && c in groups[k].cells :: c in CellsOf(groups)
    ensures forall c | c in CellsOf(groups) :: exists k | 0 <= k < |groups| :: c in groups[k].cells
    decreases |groups|
  {
    if groups != [] {
      CellsOfMembers(groups[1..]);
      forall k, c | 0 <= k < |groups| && c in groups[k].cells
        ensures c in CellsOf(groups)
      {
        if k > 0 {
          assert groups[k] == groups[1..][k - 1];
        }
      }
      forall c | c in CellsOf(groups)
        ensures exists k | 0 <= k < |groups| :: c in groups[k].cells
      {
        if c !in groups[0].cells {
          var k :| 0 <= k < |groups[1..]| && c in groups[1..][k].cells;
          assert groups[k + 1] == groups[1..][k];
        }
      }
    }
  }

  /** Setting the entry of every listed minterm to 1. */
  function Mark(grid: seq<bool>, minterms: seq<nat>): (r: seq<bool>)
    requires forall k | 0 <= k < |minterms| :: minterms[k] < |grid|
    ensures |r| == |grid|
    ensures forall i | 0 <= i < |r| :: r[i] <==> grid[i] || i in minterms
    decreases |minterms|
  {
    if minterms == [] then grid
    else Mark(grid[minterms[0] := true], minterms[1..])
  }

  /** A grid of 2^n zero entries with every minterm then marked. */
  function BuildGrid(minterms: seq<nat>, n: nat): (grid: seq<bool>)
    requires forall k | 0 <= k < |minterms| :: minterms[k] < Pow2(n)
    ensures |grid| == Pow2(n)
    ensures forall i | 0 <= i < |grid| :: grid[i] <==> i in minterms
  {
    Mark(seq(Pow2(n), _ => false), minterms)
  }
}

=== FILE: group_finder.dfy ===
/** The group finder: `findAllPrimeImplicants` and the functions it calls
    (`findPrimeGroup`, `find2VarGroup`, `find3VarGroup`, `find4VarGroup`,
    `isValidGroup`, `arraysEqual`). */
module GroupFinder {
  import opened Wrappers
  import opened Bits
  import opened Seqs
  import opened Grid
  import opened Adjacency
  import opened Bfs

  /** The 1-valued entries of `s`, in order. */
  function OnesIn(grid: seq<bool>, s: seq<nat>): seq<nat>
    decreases |s|
  {
    if s == [] then []
    else (if IsOne(grid, s[0]) then [s[0]] else []) + OnesIn(grid, s[1..])
  }

  /** The first `k` elements of `xs`, or all of them when there are fewer. */
  function FirstN(xs: seq<nat>, k: nat): seq<nat>
  {
    if k <= |xs| then xs[..k] else xs
  }

  /** How many more cells fit below `size` when `held` are held. */
  function Room(size: nat, held: nat): nat
  {
    if held < size then size - held else 0
  }

  /** The loop over `adjacent[start]` in `find2VarGroup`: each 1-valued
      neighbour is pushed while fewer than `size` cells are held, so the
      cells added are the first 1-valued neighbours in table order, as many
      as fit. */
  function CollectNeighbours(grid: seq<bool>, nbrs: seq<nat>, size: nat, cells: seq<nat>): (r: seq<nat>)
    ensures cells <= r
    ensures |r| <= Max(|cells|, size) && |r| <= |cells| + |nbrs|
    ensures forall k | |cells| <= k < |r| :: r[k] in nbrs && IsOne(grid, r[k])
    ensures Distinct(nbrs) && Distinct(cells) && (forall x | x in nbrs :: x !in cells) ==> Distinct(r)
    ensures |r| >= size || forall x | x in nbrs && IsOne(grid, x) :: x in r
    decreases |nbrs|
  {
    if nbrs == [] then cells
    else if IsOne(grid, nbrs[0]) && |cells| < size then
      var r := CollectNeighbours(grid, nbrs[1..], size, cells + [nbrs[0]]);
      assert r[|cells|] == nbrs[0];
      r
    else
      CollectNeighbours(grid, nbrs[1..], size, cells)
  }

  /** The neighbours the scan adds are the first 1-valued ones in table
      order, as many as fit below `size`. */
  lemma {:induction false} CollectTakesFirstOnes(grid: seq<bool>, nbrs: seq<nat>, size: nat, cells: seq<nat>)
    ensures CollectNeighbours(grid, nbrs, size, cells) == cells + FirstN(OnesIn(grid, nbrs), Room(size, |cells|))
    decreases |nbrs|
  {
    if nbrs != [] {
      if IsOne(grid, nbrs[0]) && |cells| < size {
        CollectTakesFirstOnes(grid, nbrs[1..], size, cells + [nbrs[0]]);
        FirstOnesTake(grid, nbrs, size, cells);
      } else {
        CollectTakesFirstOnes(grid, nbrs[1..], size, cells);
        FirstOnesSkip(grid, nbrs, size, cells);
      }
    }
  }

  /** Taking the head neighbour uses up one place of the room. */
  lemma FirstOnesTake(grid: seq<bool>, nbrs: seq<nat>, size: nat, cells: seq<nat>)
    requires nbrs != [] && IsOne(grid, nbrs[0]) && |cells| < size
    ensures (cells + [nbrs[0]]) + FirstN(OnesIn(grid, nbrs[1..]), Room(size, |cells| + 1))
         == cells + FirstN(OnesIn(grid, nbrs), Room(size, |cells|))
  {
    var x, rest := nbrs[0], OnesIn(grid, nbrs[1..]);
    var k := Room(size, |cells|);
    assert OnesIn(grid, nbrs) == [x] + rest;
    assert Room(size, |cells| + 1) == k - 1;
    FirstNCons(x, rest, k);
    AppendAssoc(cells, [x], FirstN(rest, k - 1));
  }

  lemma AppendAssoc(a: seq<nat>, b: seq<nat>, c: seq<nat>)
    ensures (a + b) + c == a + (b + c)
  {
  }

  /** Taking `k > 0` elements of a list takes its head and `k - 1` more. */
  lemma FirstNCons(x: nat, rest: seq<nat>, k: nat)
    requires k > 0
    ensures FirstN([x] + rest, k) == [x] + FirstN(rest, k - 1)
  {
    if k <= |rest| + 1 {
      assert ([x] + rest)[..k] == [x] + rest[..k - 1];
    }
  }

  /** Skipping the head neighbour, a 0-cell or one with no room left,
      changes nothing that is taken. */
  lemma FirstOnesSkip(grid: seq<bool>, nbrs: seq<nat>, size: nat, cells: seq<nat>)
    requires nbrs != [] && !(IsOne(grid, nbrs[0]) && |cells| < size)
    ensures FirstN(OnesIn(grid, nbrs[1..]), Room(size, |cells|)) == FirstN(OnesIn(grid, nbrs), Room(size, |cells|))
  {
    if !IsOne(grid, nbrs[0]) {
      assert OnesIn(grid, nbrs) == OnesIn(grid, nbrs[1..]);
    }
  }

  /** `find2VarGroup`: the start cell if it is 1, then its 1-valued table
      neighbours in table order, up to `size` cells. It is not a
      breadth-first search: only the start cell's own neighbours are read. */
  function Find2VarGroup(grid: seq<bool>, start: nat, size: nat): (cells: seq<nat>)
    ensures AllOnes(grid, cells) && Distinct(cells)
    ensures |cells| <= Max(1, size) && |cells| <= 3
    ensures start in cells <==> IsOne(grid, start)
    ensures IsOne(grid, start) ==> cells[0] == start
    ensures forall k | 0 <= k < |cells| && cells[k] != start :: cells[k] in Adj2(start)
    ensures |cells| >= size || forall nb | nb in Adj2(start) && IsOne(grid, nb) :: nb in cells
  {
    Adj2WellFormed();
    assert start < 4 ==> RowWellFormed(Adj2, start, 4);
    assert start !in Adj2(start);
    var init := if IsOne(grid, start) then [start] else [];
    var cells := CollectNeighbours(grid, Adj2(start), size, init);
    assert IsOne(grid, start) ==> cells[0] == start && start in cells;
    assert start in cells ==> IsOne(grid, start) by {
      if start in cells {
        var k :| 0 <= k < |cells| && cells[k] == start;
      }
    }
    cells
  }

  /** The 2-variable group is the start cell if it is 1, followed by the
      first 1-valued table neighbours in table order, as many as fit below
      `size`. */
  lemma Find2VarTakesFirstOnes(grid: seq<bool>, start: nat, size: nat)
    ensures var init := if IsOne(grid, start) then [start] else [];
            Find2VarGroup(grid, start, size) == init + FirstN(OnesIn(grid, Adj2(start)), Room(size, |init|))
  {
    CollectTakesFirstOnes(grid, Adj2(start), size, if IsOne(grid, start) then [start] else []);
  }

  /** With cells 0, 1 and 2 set and room for two cells, the scan from 0
      keeps 1, the first 1-valued neighbour in table order, not 2. */
  lemma Find2VarGroupTableOrder()
    ensures Find2VarGroup([true, true, true, false], 0, 2) == [0, 1]
  {
    var grid := [true, true, true, false];
    assert Adj2(0) == [1, 2];
    assert CollectNeighbours(grid, [2], 2, [0, 1]) == [0, 1] by {
      assert [2][1..] == [];
    }
    assert CollectNeighbours(grid, [1, 2], 2, [0]) == [0, 1] by {
      assert [1, 2][1..] == [2];
      assert [0] + [1] == [0, 1];
    }
  }

  ghost predicate FlipOfEarlier(cells: seq<nat>, j: nat)
    requires j < |cells|
  {
    exists i | 0 <= i < j :: OneBitApart(cells[i], cells[j])
  }

  /** Every cell after the first differs in one bit from an earlier cell. */
  ghost predicate JoinedByFlips(cells: seq<nat>)
  {
    forall j: nat | 0 < j < |cells| :: FlipOfEarlier(cells, j)
  }

  /** A list linked through a well-formed table is joined by one-bit flips. */
  lemma LinkedByFlips(adj: nat -> seq<nat>, size: nat, cells: seq<nat>)
    requires WellFormedTable(adj, size) && Linked(adj, cells)
    ensures JoinedByFlips(cells)
  {
    forall j: nat | 0 < j < |cells|
      ensures FlipOfEarlier(cells, j)
    {
      assert LinkedAt(adj, cells, j);
      var i :| 0 <= i < j && cells[j] in adj(cells[i]);
      TableNeighbours(adj, size, cells[i], cells[j]);
      assert OneBitApart(cells[i], cells[j]);
    }
  }

  /** `find3VarGroup`. */
  function Find3VarGroup(grid: seq<bool>, start: nat, size: nat): seq<nat>
  {
    FindGroupBfs(grid, start, size, Adj3)
  }

  /** `find4VarGroup`. */
  function Find4VarGroup(grid: seq<bool>, start: nat, size: nat): seq<nat>
  {
    FindGroupBfs(grid, start, size, Adj4)
  }

  /** The 3- and 4-variable searches yield nothing from a 0-cell; otherwise
      distinct 1-cells of the map, the start cell first, at most `size` of
      them, each later cell one bit away from an earlier one. */
  lemma BfsGroupsJoinedByFlips(grid: seq<bool>, start: nat, size: nat)
    ensures var cells := Find3VarGroup(grid, start, size);
            && (cells == [] <==> !IsOne(grid, start))
            && (IsOne(grid, start) ==> cells[0] == start && |cells| <= Max(1, size))
            && Distinct(cells) && AllOnes(grid, cells) && JoinedByFlips(cells)
    ensures var cells := Find4VarGroup(grid, start, size);
            && (cells == [] <==> !IsOne(grid, start))
            && (IsOne(grid, start) ==> cells[0] == start && |cells| <= Max(1, size))
            && Distinct(cells) && AllOnes(grid, cells) && JoinedByFlips(cells)
  {
    Adj3WellFormed();
    LinkedByFlips(Adj3, 8, Find3VarGroup(grid, start, size));
    Adj4WellFormed();
    LinkedByFlips(Adj4, 16, Find4VarGroup(grid, start, size));
  }

  /** The cells `findPrimeGroup` collects before sorting them. */
  function GrowCells(grid: seq<bool>, start: nat, size: nat, n: nat): (cells: seq<nat>)
    ensures Distinct(cells) && AllOnes(grid, cells) && |cells| <= Max(1, size)
    ensures IsOne(grid, start) && (size == 1 || 2 <= n <= 4) ==> start in cells
    ensures size == 1 ==> cells == if IsOne(grid, start) then [start] else []
  {
    if size == 1 then (if IsOne(grid, start) then [start] else [])
    else if n == 2 then Find2VarGroup(grid, start, size)
    else if n == 3 then Find3VarGroup(grid, start, size)
    else if n == 4 then Find4VarGroup(grid, start, size)
    else []
  }

  /** Past size 1 the cells come from the 2-variable scan, from the
      breadth-first search over the 3- or 4-variable table, or from nowhere. */
  lemma GrowCellsDispatch(grid: seq<bool>, start: nat, size: nat, n: nat)
    ensures var cells := GrowCells(grid, start, size, n);
            && (n == 2 && size != 1 ==> cells == Find2VarGroup(grid, start, size))
            && (n == 3 && size != 1 ==> cells == FindGroupBfs(grid, start, size, Adj3))
            && (n == 4 && size != 1 ==> cells == FindGroupBfs(grid, start, size, Adj4))
            && (size != 1 && !(2 <= n <= 4) ==> cells == [])
  {
  }

  /** The numeric ascending sort of duplicate-free cells. */
  lemma SortCells(cells: seq<nat>)
    requires Distinct(cells)
    ensures var sorted := SortBy(cells, Ascending);
            && StrictlyIncreasing(sorted)
            && |sorted| == |cells|
            && (forall x | x in sorted :: x in cells)
            && (forall x | x in cells :: x in sorted)
            && (|cells| == 1 ==> sorted == cells)
  {
    var sorted := SortBy(cells, Ascending);
    SortBySorted(cells, Ascending);
    SortedDistinctIsStrict(sorted);
    assert |multiset(sorted)| == |multiset(cells)|;
    assert forall x | x in sorted :: x in multiset(cells);
    assert forall x | x in cells :: x in multiset(sorted);
    if |cells| == 1 {
      SortBySortedIsIdentity(cells, Ascending);
    }
  }

  /** `findPrimeGroup`: the cells grown from `start` for a group of `size`,
      sorted ascending, or `null` when there are none. */
  function FindPrimeGroup(grid: seq<bool>, start: nat, size: nat, n: nat): (r: Option<Group>)
    ensures r.Some? ==>
              && |r.value.cells| >= 1
              && StrictlyIncreasing(r.value.cells)
              && AllOnes(grid, r.value.cells)
              && |r.value.cells| <= Max(1, size)
    ensures IsOne(grid, start) && (size == 1 || 2 <= n <= 4) ==> r.Some? && start in r.value.cells
  {
    var cells := GrowCells(grid, start, size, n);
    SortCells(cells);
    if |cells| > 0 then Some(Group(SortBy(cells, Ascending))) else None
  }

  /** There is a group iff some cells were grown, and it holds exactly
      the grown cells, as many as were grown. */
  lemma FindPrimeGroupSortsGrowth(grid: seq<bool>, start: nat, size: nat, n: nat)
    ensures var r := FindPrimeGroup(grid, start, size, n);
            var cells := GrowCells(grid, start, size, n);
            && (r.Some? <==> cells != [])
            && (r.Some? ==> |r.value.cells| == |cells|)
            && (r.Some? ==> forall x :: x in r.value.cells <==> x in cells)
  {
    SortCells(GrowCells(grid, start, size, n));
  }

  /** The two facts about 2-variable groups that `findPrimeGroup` yields:
      a singleton for size 1, and a pair of table neighbours otherwise. */
  lemma FindPrimeGroupShape(grid: seq<bool>, start: nat, size: nat, n: nat)
    requires IsOne(grid, start)
    ensures size == 1 ==> FindPrimeGroup(grid, start, size, n) == Some(Group([start]))
    ensures var r := FindPrimeGroup(grid, start, size, n);
            n == 2 && size != 1 ==> r.Some? && |r.value.cells| <= 3
    ensures var r := FindPrimeGroup(grid, start, size, n);
            n == 2 && r.Some? && |r.value.cells| == 2 ==> r.value.cells[1] in Adj2(r.value.cells[0])
  {
    var cells := GrowCells(grid, start, size, n);
    SortCells(cells);
    var sorted := SortBy(cells, Ascending);
    if n == 2 && size != 1 && |sorted| == 2 {
      GrowCellsDispatch(grid, start, size, n);
      TwoVarPair(grid, start, size, sorted);
    }
  }

  /** For 2, 3 and 4 variables a two-cell group is a pair of cells one bit
      apart. */
  lemma FindPrimeGroupPair(grid: seq<bool>, start: nat, size: nat, n: nat)
    requires IsOne(grid, start) && 2 <= n <= 4
    ensures var r := FindPrimeGroup(grid, start, size, n);
            r.Some? && |r.value.cells| == 2 ==> OneBitApart(r.value.cells[0], r.value.cells[1])
  {
    if n == 2 || size == 1 {
      FindPrimeGroupShape(grid, start, size, n);
      var r := FindPrimeGroup(grid, start, size, n);
      if n == 2 && |r.value.cells| == 2 {
        Adj2WellFormed();
        TableNeighbours(Adj2, 4, r.value.cells[0], r.value.cells[1]);
      }
    } else {
      BfsGroupPair(grid, start, size, n);
    }
  }

  /** For 3 and 4 variables a two-cell group grown past size 1 is a pair
      of cells one bit apart. */
  lemma BfsGroupPair(grid: seq<bool>, start: nat, size: nat, n: nat)
    requires IsOne(grid, start) && size != 1 && (n == 3 || n == 4)
    ensures var r := FindPrimeGroup(grid, start, size, n);
            r.Some? && |r.value.cells| == 2 ==> OneBitApart(r.value.cells[0], r.value.cells[1])
  {
    var cells := GrowCells(grid, start, size, n);
    SortCells(cells);
    var sorted := SortBy(cells, Ascending);
    if |sorted| == 2 {
      BfsPair(grid, start, size, n, sorted);
    }
  }

  /** A table neighbour differs in one bit, read either way round. */
  lemma TableNeighbours(adj: nat -> seq<nat>, size: nat, a: nat, b: nat)
    requires WellFormedTable(adj, size) && b in adj(a)
    ensures OneBitApart(a, b) && OneBitApart(b, a)
  {
    assert a < size;
    assert RowWellFormed(adj, a, size);
  }

  /** The two cells of a breadth-first pair are table neighbours. */
  lemma BfsPair(grid: seq<bool>, start: nat, size: nat, n: nat, sorted: seq<nat>)
    requires IsOne(grid, start) && size != 1 && (n == 3 || n == 4)
    requires var cells := GrowCells(grid, start, size, n);
             |cells| == 2 && sorted == SortBy(cells, Ascending) && |sorted| == 2
    requires forall x | x in GrowCells(grid, start, size, n) :: x in sorted
    requires StrictlyIncreasing(sorted)
    ensures OneBitApart(sorted[0], sorted[1])
  {
    GrowCellsDispatch(grid, start, size, n);
    if n == 3 {
      Adj3WellFormed();
      LinkedPair(FindGroupBfs(grid, start, size, Adj3), Adj3, 8, sorted);
    } else {
      Adj4WellFormed();
      LinkedPair(FindGroupBfs(grid, start, size, Adj4), Adj4, 16, sorted);
    }
  }

  /** Two linked cells over a well-formed table, sorted, are one bit apart. */
  lemma LinkedPair(cells: seq<nat>, adj: nat -> seq<nat>, tableSize: nat, sorted: seq<nat>)
    requires WellFormedTable(adj, tableSize) && Linked(adj, cells) && |cells| == 2
    requires |sorted| == 2 && forall x | x in cells :: x in sorted
    requires Distinct(cells)
    ensures OneBitApart(sorted[0], sorted[1])
  {
    LinkedSecond(adj, cells);
    TableNeighbours(adj, tableSize, cells[0], cells[1]);
    BothWaysOnPair(OneBitApart, cells[0], cells[1], sorted);
  }

  /** In a linked two-cell list the second cell neighbours the first. */
  lemma LinkedSecond(adj: nat -> seq<nat>, cells: seq<nat>)
    requires Linked(adj, cells) && |cells| == 2
    ensures cells[1] in adj(cells[0])
  {
    assert LinkedAt(adj, cells, 1);
  }

  /** A relation that holds both ways between two different members of a
      two-element list holds between its elements in list order. */
  lemma BothWaysOnPair(rel: (nat, nat) -> bool, a: nat, b: nat, sorted: seq<nat>)
    requires rel(a, b) && rel(b, a)
    requires a != b && a in sorted && b in sorted && |sorted| == 2
    ensures rel(sorted[0], sorted[1])
  {
    if sorted[0] == a {
      assert sorted[1] == b;
    } else {
      assert sorted[0] == b && sorted[1] == a;
    }
  }

  /** A sorted two-cell 2-variable group holds the start cell and one of
      its table neighbours, so its cells are adjacent. */
  lemma TwoVarPair(grid: seq<bool>, start: nat, size: nat, sorted: seq<nat>)
    requires IsOne(grid, start)
    requires forall x | x in Find2VarGroup(grid, start, size) :: x in sorted
    requires StrictlyIncreasing(sorted) && |sorted| == 2 == |Find2VarGroup(grid, start, size)|
    ensures sorted[1] in Adj2(sorted[0])
  {
    var cells := Find2VarGroup(grid, start, size);
    Adj2WellFormed();
    assert |cells| == 2;
    assert cells[1] != start && cells[1] in Adj2(start);
    assert start in sorted && cells[1] in sorted;
    if sorted[0] == start {
      assert sorted[1] == cells[1];
    } else {
      assert sorted[1] == start && sorted[0] == cells[1];
      assert RowWellFormed(Adj2, start, 4);
    }
  }

  /** `isValidGroup`: the bit test for a positive power of two applied to
      the group's length. */
  function IsValidGroup(group: Group): (valid: bool)
    ensures valid <==> IsPow2(|group.cells|)
  {
    var size := |group.cells|;
    BitAndTestIsPow2(size);
    size > 0 && BitAnd(size, size - 1) == 0
  }

  /** Sorting a strictly increasing cell list leaves it unchanged. */
  lemma SortStrictIsIdentity(s: seq<nat>)
    ensures |SortBy(s, Ascending)| == |s|
    ensures StrictlyIncreasing(s) ==> SortBy(s, Ascending) == s
  {
    assert |multiset(SortBy(s, Ascending))| == |multiset(s)|;
    if StrictlyIncreasing(s) {
      SortBySortedIsIdentity(s, Ascending);
    }
  }

  /** `arraysEqual`: equal lengths and equal elements after sorting both. */
  function ArraysEqual(arr1: seq<nat>, arr2: seq<nat>): (equal: bool)
    ensures StrictlyIncreasing(arr1) && StrictlyIncreasing(arr2) ==> (equal <==> arr1 == arr2)
  {
    var sorted1 := SortBy(arr1, Ascending);
    var sorted2 := SortBy(arr2, Ascending);
    SortStrictIsIdentity(arr1);
    SortStrictIsIdentity(arr2);
    |arr1| == |arr2| && forall idx | 0 <= idx < |sorted1| :: sorted1[idx] == sorted2[idx]
  }

  /** Whether some group already held has the same cells (the duplicate
      test of `findAllPrimeImplicants`). */
  predicate AnySameCells(groups: seq<Group>, cells: seq<nat>)
  {
    exists k | 0 <= k < |groups| :: ArraysEqual(groups[k].cells, cells)
  }

  /** A growth rule: the group grown from a cell for a target size, or
      none. The scan below is written over any rule; the rule
      `findAllPrimeImplicants` uses is `Growth`, so the lemmas about the
      scan need only the facts about `findPrimeGroup` they name. */
  type Grower = (nat, nat) -> Option<Group>

  /** `findPrimeGroup` on this grid and variable count, as a growth rule. */
  function Growth(grid: seq<bool>, n: nat): Grower
  {
    (i: nat, size: nat) => FindPrimeGroup(grid, i, size, n)
  }

  /** One step of the inner loop of `findAllPrimeImplicants`: at a 1-cell,
      the group grown to exactly `size` cells is appended when it is valid
      and no group held has the same cells. */
  function ScanStep(grid: seq<bool>, grow: Grower, size: nat, i: nat, acc: seq<Group>): seq<Group>
  {
    if !IsOne(grid, i) then acc
    else
      var found := grow(i, size);
      if found.Some? && |found.value.cells| == size && IsValidGroup(found.value)
         && !AnySameCells(acc, found.value.cells)
      then acc + [found.value]
      else acc
  }

  /** The inner loop for one group size, from cell `i` on. */
  function ScanCells(grid: seq<bool>, n: nat, grow: Grower, size: nat, i: nat, acc: seq<Group>): seq<Group>
    decreases Pow2(n) - i
  {
    if i >= Pow2(n) then acc
    else if !IsOne(grid, i) then ScanCells(grid, n, grow, size, i + 1, acc)
    else
      var found := grow(i, size);
      if found.Some? && |found.value.cells| == size && IsValidGroup(found.value)
         && !AnySameCells(acc, found.value.cells)
      then ScanCells(grid, n, grow, size, i + 1, acc + [found.value])
      else ScanCells(grid, n, grow, size, i + 1, acc)
  }

  /** The outer loop, which halves the group size from 2^n down to 1,
      written over the exponent: sizes 2^e, 2^(e-1), ..., 1. */
  function ScanSizes(grid: seq<bool>, n: nat, grow: Grower, e: nat, acc: seq<Group>): seq<Group>
    decreases e
  {
    var acc' := ScanCells(grid, n, grow, Pow2(e), 0, acc);
    if e == 0 then acc' else ScanSizes(grid, n, grow, e - 1, acc')
  }

  /** What every accepted group satisfies. */
  ghost predicate Candidate(grid: seq<bool>, n: nat, g: Group)
  {
    && |g.cells| >= 1
    && StrictlyIncreasing(g.cells)
    && IsPow2(|g.cells|) && |g.cells| <= Pow2(n)
    && AllOnes(grid, g.cells)
    && (n == 2 ==> |g.cells| == 1 || (|g.cells| == 2 && g.cells[1] in Adj2(g.cells[0])))
    && (2 <= n <= 4 && |g.cells| == 2 ==> OneBitApart(g.cells[0], g.cells[1]))
  }

  /** The accumulated list: candidates of at least `minSize` cells, no two
      with the same cells, in non-increasing size order. */
  ghost predicate CandidateList(grid: seq<bool>, n: nat, gs: seq<Group>, minSize: nat)
  {
    && (forall k | 0 <= k < |gs| :: Candidate(grid, n, gs[k]) && |gs[k].cells| >= minSize)
    && (forall j, k | 0 <= j < k < |gs| :: gs[j].cells != gs[k].cells)
    && (forall j, k | 0 <= j < k < |gs| :: |gs[j].cells| >= |gs[k].cells|)
  }

  /** A list whose groups have at least `minSize` cells also has groups of
      at least any smaller size. */
  lemma CandidateListLowered(grid: seq<bool>, n: nat, gs: seq<Group>, minSize: nat, lower: nat)
    requires CandidateList(grid, n, gs, minSize) && lower <= minSize
    ensures CandidateList(grid, n, gs, lower)
  {
  }

  /** Growing from 1-cell `i` at size 2^e yields a group of exactly that
      size, the groups the scan at that size accepts. */
  predicate GrowsFull(grid: seq<bool>, n: nat, e: nat, i: nat)
  {
    var found := FindPrimeGroup(grid, i, Pow2(e), n);
    IsOne(grid, i) && found.Some? && |found.value.cells| == Pow2(e)
  }

  /** `GrowsFull` for any growth rule. */
  predicate GrowsFullBy(grid: seq<bool>, grow: Grower, e: nat, i: nat)
  {
    var found := grow(i, Pow2(e));
    IsOne(grid, i) && found.Some? && |found.value.cells| == Pow2(e)
  }

  /** Every group the rule grows to full size from a 1-cell is a candidate. */
  ghost predicate AcceptsCandidates(grid: seq<bool>, n: nat, grow: Grower)
  {
    forall e: nat, i: nat | e <= n && GrowsFullBy(grid, grow, e, i) :: Candidate(grid, n, grow(i, Pow2(e)).value)
  }

  /** At size 1 the rule grows every 1-cell into its own singleton. */
  ghost predicate GivesSingletons(grid: seq<bool>, grow: Grower)
  {
    forall i: nat | IsOne(grid, i) :: grow(i, 1) == Some(Group([i]))
  }

  /** A group `findPrimeGroup` grows to full size 2^e (e <= n) is a
      candidate. */
  lemma AcceptedIsCandidate(grid: seq<bool>, n: nat, e: nat, i: nat, g: Group)
    requires e <= n && IsOne(grid, i)
    requires Some(g) == FindPrimeGroup(grid, i, Pow2(e), n)
    requires |g.cells| == Pow2(e)
    ensures Candidate(grid, n, g)
  {
    Pow2Monotone(e, n);
    Pow2IsPow2(e);
    FindPrimeGroupShape(grid, i, Pow2(e), n);
    if 2 <= n <= 4 {
      FindPrimeGroupPair(grid, i, Pow2(e), n);
    }
    if n == 2 && |g.cells| != 1 {
      assert e != 0;
      assert |g.cells| <= 3;
      assert !IsPow2(3);
    }
  }

  /** `findPrimeGroup` grows only candidates to full size. */
  lemma GrowthAcceptsCandidates(grid: seq<bool>, n: nat)
    ensures AcceptsCandidates(grid, n, Growth(grid, n))
  {
    var grow := Growth(grid, n);
    forall e: nat, i: nat | e <= n && GrowsFullBy(grid, grow, e, i)
      ensures Candidate(grid, n, grow(i, Pow2(e)).value)
    {
      AcceptedIsCandidate(grid, n, e, i, grow(i, Pow2(e)).value);
    }
  }

  /** `findPrimeGroup` at size 1 yields the singleton of a 1-cell. */
  lemma GrowthGivesSingletons(grid: seq<bool>, n: nat)
    ensures GivesSingletons(grid, Growth(grid, n))
  {
    forall i: nat | IsOne(grid, i)
      ensures Growth(grid, n)(i, 1) == Some(Group([i]))
    {
      FindPrimeGroupShape(grid, i, 1, n);
    }
  }

  /** Appending a candidate of the list's size whose cells no group held
      has keeps the list a candidate list. */
  lemma AcceptKeepsCandidateList(grid: seq<bool>, n: nat, size: nat, acc: seq<Group>, g: Group)
    requires CandidateList(grid, n, acc, size)
    requires Candidate(grid, n, g) && |g.cells| == size && !AnySameCells(acc, g.cells)
    ensures CandidateList(grid, n, acc + [g], size)
  {
    var gs := acc + [g];
    forall k | 0 <= k < |gs|
      ensures Candidate(grid, n, gs[k]) && |gs[k].cells| >= size
    {
      if k < |acc| { assert gs[k] == acc[k]; }
    }
    forall j, k | 0 <= j < k < |gs|
      ensures gs[j].cells != gs[k].cells && |gs[j].cells| >= |gs[k].cells|
    {
      assert gs[j] == acc[j];
      if k == |acc| {
        assert !ArraysEqual(acc[j].cells, g.cells);
      } else {
        assert gs[k] == acc[k];
      }
    }
  }

  /** At size 1 a 1-cell's singleton is accepted or already held. */
  lemma SingletonKept(grid: seq<bool>, grow: Grower, i: nat, acc: seq<Group>)
    requires IsOne(grid, i) && grow(i, 1) == Some(Group([i]))
    ensures Group([i]) in ScanStep(grid, grow, 1, i, acc)
  {
    BitAndTestIsPow2(1);
    assert IsValidGroup(Group([i]));
    if AnySameCells(acc, [i]) {
      var k :| 0 <= k < |acc| && ArraysEqual(acc[k].cells, [i]);
      SortStrictIsIdentity([i]);
      SortStrictIsIdentity(acc[k].cells);
      assert acc[k] == Group([i]);
    } else {
      assert ScanStep(grid, grow, 1, i, acc)[|acc|] == Group([i]);
    }
  }

  lemma ScanCellsUnfold(grid: seq<bool>, n: nat, grow: Grower, size: nat, i: nat, acc: seq<Group>)
    requires i < Pow2(n)
    ensures ScanCells(grid, n, grow, size, i, acc) == ScanCells(grid, n, grow, size, i + 1, ScanStep(grid, grow, size, i, acc))
  {
  }

  lemma {:induction false} ScanCellsExtends(grid: seq<bool>, n: nat, grow: Grower, size: nat, i: nat, acc: seq<Group>)
    ensures acc <= ScanCells(grid, n, grow, size, i, acc)
    decreases Pow2(n) - i
  {
    if i < Pow2(n) {
      ScanCellsUnfold(grid, n, grow, size, i, acc);
      ScanCellsExtends(grid, n, grow, size, i + 1, ScanStep(grid, grow, size, i, acc));
    }
  }

  lemma ScanStepInvariant(grid: seq<bool>, n: nat, grow: Grower, e: nat, i: nat, acc: seq<Group>)
    requires e <= n && AcceptsCandidates(grid, n, grow)
    requires CandidateList(grid, n, acc, Pow2(e))
    ensures CandidateList(grid, n, ScanStep(grid, grow, Pow2(e), i, acc), Pow2(e))
  {
    var found := grow(i, Pow2(e));
    if IsOne(grid, i) && found.Some? && |found.value.cells| == Pow2(e) && IsValidGroup(found.value)
       && !AnySameCells(acc, found.value.cells) {
      assert GrowsFullBy(grid, grow, e, i);
      AcceptKeepsCandidateList(grid, n, Pow2(e), acc, found.value);
    }
  }

  lemma {:induction false} ScanCellsInvariant(grid: seq<bool>, n: nat, grow: Grower, e: nat, i: nat, acc: seq<Group>)
    requires e <= n && AcceptsCandidates(grid, n, grow)
    requires CandidateList(grid, n, acc, Pow2(e))
    ensures CandidateList(grid, n, ScanCells(grid, n, grow, Pow2(e), i, acc), Pow2(e))
    decreases Pow2(n) - i
  {
    if i < Pow2(n) {
      ScanCellsUnfold(grid, n, grow, Pow2(e), i, acc);
      ScanStepInvariant(grid, n, grow, e, i, acc);
      ScanCellsInvariant(grid, n, grow, e, i + 1, ScanStep(grid, grow, Pow2(e), i, acc));
    }
  }

  /** At size 1 every 1-cell from `i` on ends up as a singleton group. */
  lemma {:induction false} ScanCellsSingletons(grid: seq<bool>, n: nat, grow: Grower, i: nat, acc: seq<Group>)
    requires GivesSingletons(grid, grow)
    ensures forall j | i <= j < Pow2(n) && IsOne(grid, j) :: Group([j]) in ScanCells(grid, n, grow, 1, i, acc)
    decreases Pow2(n) - i
  {
    if i < Pow2(n) {
      var acc' := ScanStep(grid, grow, 1, i, acc);
      ScanCellsUnfold(grid, n, grow, 1, i, acc);
      ScanCellsSingletons(grid, n, grow, i + 1, acc');
      if IsOne(grid, i) {
        SingletonKept(grid, grow, i, acc);
        ScanCellsKeeps(grid, n, grow, 1, i + 1, acc', Group([i]));
      }
    }
  }

  /** At size 2^e a group grown to full size is accepted, or a group with
      the same cells is already held. */
  lemma FullGroupKept(grid: seq<bool>, n: nat, grow: Grower, e: nat, i: nat, acc: seq<Group>)
    requires e <= n && AcceptsCandidates(grid, n, grow) && GrowsFullBy(grid, grow, e, i)
    requires CandidateList(grid, n, acc, Pow2(e))
    ensures var acc' := ScanStep(grid, grow, Pow2(e), i, acc);
            && grow(i, Pow2(e)).value in acc'
            && CandidateList(grid, n, acc', Pow2(e))
  {
    var g := grow(i, Pow2(e)).value;
    Pow2IsPow2(e);
    assert IsValidGroup(g);
    assert Candidate(grid, n, g);
    if AnySameCells(acc, g.cells) {
      var k :| 0 <= k < |acc| && ArraysEqual(acc[k].cells, g.cells);
      assert Candidate(grid, n, acc[k]);
      assert acc[k] == g;
    } else {
      AcceptKeepsCandidateList(grid, n, Pow2(e), acc, g);
    }
  }

  /** At size 2^e a group grown to full size from cell `j`, at or after
      `i`, ends up in the list. */
  lemma {:induction false} ScanCellsFullAt(grid: seq<bool>, n: nat, grow: Grower, e: nat, i: nat, acc: seq<Group>, j: nat)
    requires e <= n && AcceptsCandidates(grid, n, grow)
    requires i <= j < Pow2(n) && GrowsFullBy(grid, grow, e, j)
    requires CandidateList(grid, n, acc, Pow2(e))
    ensures grow(j, Pow2(e)).value in ScanCells(grid, n, grow, Pow2(e), i, acc)
    decreases Pow2(n) - i
  {
    var acc' := ScanStep(grid, grow, Pow2(e), i, acc);
    ScanCellsUnfold(grid, n, grow, Pow2(e), i, acc);
    if i == j {
      FullGroupKept(grid, n, grow, e, i, acc);
      ScanCellsKeeps(grid, n, grow, Pow2(e), i + 1, acc', grow(i, Pow2(e)).value);
    } else {
      ScanStepInvariant(grid, n, grow, e, i, acc);
      ScanCellsFullAt(grid, n, grow, e, i + 1, acc', j);
    }
  }

  lemma ScanCellsKeeps(grid: seq<bool>, n: nat, grow: Grower, size: nat, i: nat, acc: seq<Group>, g: Group)
    requires g in acc
    ensures g in ScanCells(grid, n, grow, size, i, acc)
  {
    ScanCellsExtends(grid, n, grow, size, i, acc);
    PrefixMember(g, acc, ScanCells(grid, n, grow, size, i, acc));
  }

  /** Later passes only append, so they lose no group. */
  lemma ScanSizesKeeps(grid: seq<bool>, n: nat, grow: Grower, e: nat, acc: seq<Group>, g: Group)
    requires g in acc
    ensures g in ScanSizes(grid, n, grow, e, acc)
    decreases e
  {
    ScanCellsKeeps(grid, n, grow, Pow2(e), 0, acc, g);
    ScanSizesKeepsFirst(grid, n, grow, e, acc, g);
  }

  /** A group the first pass holds is in the final list. */
  lemma ScanSizesKeepsFirst(grid: seq<bool>, n: nat, grow: Grower, e: nat, acc: seq<Group>, g: Group)
    requires g in ScanCells(grid, n, grow, Pow2(e), 0, acc)
    ensures g in ScanSizes(grid, n, grow, e, acc)
    decreases e, 0
  {
    if e > 0 {
      ScanSizesKeeps(grid, n, grow, e - 1, ScanCells(grid, n, grow, Pow2(e), 0, acc), g);
      ScanSizesNext(grid, n, grow, e, acc);
    } else {
      ScanSizesLast(grid, n, grow, acc);
    }
  }

  /** A group the later passes keep is in the final list. */
  lemma ScanSizesKeepsLater(grid: seq<bool>, n: nat, grow: Grower, e: nat, acc: seq<Group>, g: Group)
    requires e > 0 && g in ScanSizes(grid, n, grow, e - 1, ScanCells(grid, n, grow, Pow2(e), 0, acc))
    ensures g in ScanSizes(grid, n, grow, e, acc)
  {
    ScanSizesNext(grid, n, grow, e, acc);
  }

  /** The last pass's list is the final list. */
  lemma ScanSizesLast(grid: seq<bool>, n: nat, grow: Grower, acc: seq<Group>)
    ensures ScanSizes(grid, n, grow, 0, acc) == ScanCells(grid, n, grow, Pow2(0), 0, acc)
  {
  }

  /** The passes after the first continue from the first pass's list. */
  lemma ScanSizesNext(grid: seq<bool>, n: nat, grow: Grower, e: nat, acc: seq<Group>)
    requires e > 0
    ensures ScanSizes(grid, n, grow, e, acc) == ScanSizes(grid, n, grow, e - 1, ScanCells(grid, n, grow, Pow2(e), 0, acc))
  {
  }

  /** What a pass at size 2^e needs: a rule that grows only candidates
      and a candidate list of groups of at least 2^e cells. */
  ghost predicate PassReady(grid: seq<bool>, n: nat, grow: Grower, e: nat, acc: seq<Group>)
  {
    e <= n && AcceptsCandidates(grid, n, grow) && CandidateList(grid, n, acc, Pow2(e))
  }

  /** The pass at size 2^e leaves the next pass, at half the size, ready. */
  lemma NextPassReady(grid: seq<bool>, n: nat, grow: Grower, e: nat, acc: seq<Group>)
    requires e > 0 && PassReady(grid, n, grow, e, acc)
    ensures PassReady(grid, n, grow, e - 1, ScanCells(grid, n, grow, Pow2(e), 0, acc))
  {
    ScanCellsInvariant(grid, n, grow, e, 0, acc);
    Pow2Monotone(e - 1, e);
    CandidateListLowered(grid, n, ScanCells(grid, n, grow, Pow2(e), 0, acc), Pow2(e), Pow2(e - 1));
  }

  /** Across the passes 2^e, ..., 1, a group grown to full size from a
      1-cell at any of those sizes is in the final list. */
  lemma ScanSizesFullAt(grid: seq<bool>, n: nat, grow: Grower, e: nat, acc: seq<Group>, d: nat, j: nat)
    requires PassReady(grid, n, grow, e, acc)
    requires d <= e && j < Pow2(n) && GrowsFullBy(grid, grow, d, j)
    ensures grow(j, Pow2(d)).value in ScanSizes(grid, n, grow, e, acc)
    decreases e, 1
  {
    if d == e {
      ScanSizesFullHere(grid, n, grow, e, acc, j);
    } else {
      ScanSizesFullLater(grid, n, grow, e, acc, d, j);
    }
  }

  /** A group grown to full size at a later pass than the first is in the
      final list. */
  lemma ScanSizesFullLater(grid: seq<bool>, n: nat, grow: Grower, e: nat, acc: seq<Group>, d: nat, j: nat)
    requires PassReady(grid, n, grow, e, acc)
    requires d < e && j < Pow2(n) && GrowsFullBy(grid, grow, d, j)
    ensures grow(j, Pow2(d)).value in ScanSizes(grid, n, grow, e, acc)
    decreases e, 0
  {
    var acc' := ScanCells(grid, n, grow, Pow2(e), 0, acc);
    NextPassReady(grid, n, grow, e, acc);
    ScanSizesFullAt(grid, n, grow, e - 1, acc', d, j);
    ScanSizesKeepsLater(grid, n, grow, e, acc, grow(j, Pow2(d)).value);
  }

  /** The pass at size 2^e keeps a group grown to that full size, and the
      later passes keep it too. */
  lemma ScanSizesFullHere(grid: seq<bool>, n: nat, grow: Grower, e: nat, acc: seq<Group>, j: nat)
    requires PassReady(grid, n, grow, e, acc)
    requires j < Pow2(n) && GrowsFullBy(grid, grow, e, j)
    ensures grow(j, Pow2(e)).value in ScanSizes(grid, n, grow, e, acc)
  {
    ScanCellsFullAt(grid, n, grow, e, 0, acc, j);
    ScanSizesKeepsFirst(grid, n, grow, e, acc, grow(j, Pow2(e)).value);
  }

  /** A group grown to its full target size 2^e (e <= n) from a 1-cell. */
  ghost predicate Grown(grid: seq<bool>, n: nat, g: Group)
  {
    exists e: nat, i: nat | e <= n && i < Pow2(n) && GrowsFull(grid, n, e, i) ::
      g == FindPrimeGroup(grid, i, Pow2(e), n).value
  }

  /** Every group of the list is such a growth. */
  ghost predicate AllGrown(grid: seq<bool>, n: nat, gs: seq<Group>)
  {
    forall k | 0 <= k < |gs| :: Grown(grid, n, gs[k])
  }

  /** `Grown` for any growth rule. */
  ghost predicate GrownBy(grid: seq<bool>, n: nat, grow: Grower, g: Group)
  {
    exists e: nat, i: nat | e <= n && i < Pow2(n) && GrowsFullBy(grid, grow, e, i) ::
      g == grow(i, Pow2(e)).value
  }

  /** `AllGrown` for any growth rule. */
  ghost predicate AllGrownBy(grid: seq<bool>, n: nat, grow: Grower, gs: seq<Group>)
  {
    forall k | 0 <= k < |gs| :: GrownBy(grid, n, grow, gs[k])
  }

  /** The inner loop appends only groups grown to full size from the cell
      it is at. */
  lemma ScanStepGrown(grid: seq<bool>, n: nat, grow: Grower, e: nat, i: nat, acc: seq<Group>)
    requires e <= n && i < Pow2(n) && AllGrownBy(grid, n, grow, acc)
    ensures AllGrownBy(grid, n, grow, ScanStep(grid, grow, Pow2(e), i, acc))
  {
    var found := grow(i, Pow2(e));
    if IsOne(grid, i) && found.Some? && |found.value.cells| == Pow2(e) {
      assert GrowsFullBy(grid, grow, e, i);
      AllGrownAppend(grid, n, grow, acc, found.value);
    }
  }

  lemma AllGrownAppend(grid: seq<bool>, n: nat, grow: Grower, acc: seq<Group>, g: Group)
    requires AllGrownBy(grid, n, grow, acc) && GrownBy(grid, n, grow, g)
    ensures AllGrownBy(grid, n, grow, acc + [g])
  {
    forall k | 0 <= k < |acc| + 1
      ensures GrownBy(grid, n, grow, (acc + [g])[k])
    {
      if k < |acc| {
        assert (acc + [g])[k] == acc[k];
      }
    }
  }

  lemma {:induction false} ScanCellsGrown(grid: seq<bool>, n: nat, grow: Grower, e: nat, i: nat, acc: seq<Group>)
    requires e <= n && AllGrownBy(grid, n, grow, acc)
    ensures AllGrownBy(grid, n, grow, ScanCells(grid, n, grow, Pow2(e), i, acc))
    decreases Pow2(n) - i
  {
    if i < Pow2(n) {
      ScanCellsUnfold(grid, n, grow, Pow2(e), i, acc);
      ScanStepGrown(grid, n, grow, e, i, acc);
      ScanCellsGrown(grid, n, grow, e, i + 1, ScanStep(grid, grow, Pow2(e), i, acc));
    }
  }

  /** Every group in the final list was grown to full size from a 1-cell. */
  lemma ScanSizesGrown(grid: seq<bool>, n: nat, grow: Grower, e: nat, acc: seq<Group>)
    requires e <= n && AllGrownBy(grid, n, grow, acc)
    ensures AllGrownBy(grid, n, grow, ScanSizes(grid, n, grow, e, acc))
    decreases e
  {
    ScanCellsGrown(grid, n, grow, e, 0, acc);
    if e > 0 {
      ScanSizesGrown(grid, n, grow, e - 1, ScanCells(grid, n, grow, Pow2(e), 0, acc));
      ScanSizesNext(grid, n, grow, e, acc);
    } else {
      ScanSizesLast(grid, n, grow, acc);
    }
  }

  lemma {:induction false} ScanSizesInvariant(grid: seq<bool>, n: nat, grow: Grower, e: nat, acc: seq<Group>)
    requires e <= n && AcceptsCandidates(grid, n, grow) && GivesSingletons(grid, grow)
    requires CandidateList(grid, n, acc, Pow2(e))
    ensures var r := ScanSizes(grid, n, grow, e, acc);
            && CandidateList(grid, n, r, 1)
            && (forall j | 0 <= j < Pow2(n) && IsOne(grid, j) :: Group([j]) in r)
    decreases e
  {
    ScanCellsInvariant(grid, n, grow, e, 0, acc);
    var acc' := ScanCells(grid, n, grow, Pow2(e), 0, acc);
    if e == 0 {
      ScanCellsSingletons(grid, n, grow, 0, acc);
    } else {
      NextPassReady(grid, n, grow, e, acc);
      ScanSizesInvariant(grid, n, grow, e - 1, acc');
    }
  }

  /** `findAllPrimeImplicants`: every group it returns has a strictly
      ascending cell list of power-of-two length made only of 1-cells; no
      two groups have the same cells; sizes never increase along the list;
      every 1-cell appears as a singleton group, so every minterm is
      covered by some candidate; and the list holds exactly the groups
      grown to their full target size from a 1-cell. */
  function FindAllPrimeImplicants(grid: seq<bool>, n: nat): (groups: seq<Group>)
    ensures forall k | 0 <= k < |groups| ::
              && StrictlyIncreasing(groups[k].cells)
              && IsPow2(|groups[k].cells|) && |groups[k].cells| <= Pow2(n)
              && AllOnes(grid, groups[k].cells)
    ensures forall j, k | 0 <= j < k < |groups| :: groups[j].cells != groups[k].cells
    ensures forall j, k | 0 <= j < k < |groups| :: |groups[j].cells| >= |groups[k].cells|
    ensures forall i | 0 <= i < Pow2(n) && IsOne(grid, i) :: Group([i]) in groups
    ensures n == 2 ==> forall k | 0 <= k < |groups| ::
              |groups[k].cells| == 1 || (|groups[k].cells| == 2 && groups[k].cells[1] in Adj2(groups[k].cells[0]))
    ensures 2 <= n <= 4 ==> forall k | 0 <= k < |groups| && |groups[k].cells| == 2 ::
              OneBitApart(groups[k].cells[0], groups[k].cells[1])
    ensures forall e: nat, i: nat | e <= n && i < Pow2(n) && GrowsFull(grid, n, e, i) ::
              FindPrimeGroup(grid, i, Pow2(e), n).value in groups
    ensures AllGrown(grid, n, groups)
  {
    var groups := ScanSizes(grid, n, Growth(grid, n), n, []);
    GrowthAcceptsCandidates(grid, n);
    GrowthGivesSingletons(grid, n);
    ScanSizesInvariant(grid, n, Growth(grid, n), n, []);
    CandidateListFacts(grid, n, groups);
    ScanSizesGrown(grid, n, Growth(grid, n), n, []);
    GrowthAllGrown(grid, n, groups);
    FullGrowthsListed(grid, n);
    groups
  }

  /** What the candidate-list invariant says about each group. */
  lemma CandidateListFacts(grid: seq<bool>, n: nat, groups: seq<Group>)
    requires CandidateList(grid, n, groups, 1)
    ensures forall k | 0 <= k < |groups| ::
              && StrictlyIncreasing(groups[k].cells)
              && IsPow2(|groups[k].cells|) && |groups[k].cells| <= Pow2(n)
              && AllOnes(grid, groups[k].cells)
    ensures n == 2 ==> forall k | 0 <= k < |groups| ::
              |groups[k].cells| == 1 || (|groups[k].cells| == 2 && groups[k].cells[1] in Adj2(groups[k].cells[0]))
    ensures 2 <= n <= 4 ==> forall k | 0 <= k < |groups| && |groups[k].cells| == 2 ::
              OneBitApart(groups[k].cells[0], groups[k].cells[1])
  {
    assert forall k | 0 <= k < |groups| :: Candidate(grid, n, groups[k]);
  }

  /** Growths by `findPrimeGroup` are growths in the sense of `Grown`. */
  lemma GrowthAllGrown(grid: seq<bool>, n: nat, gs: seq<Group>)
    requires AllGrownBy(grid, n, Growth(grid, n), gs)
    ensures AllGrown(grid, n, gs)
  {
    forall k | 0 <= k < |gs|
      ensures Grown(grid, n, gs[k])
    {
      var e: nat, i: nat :| e <= n && i < Pow2(n) && GrowsFullBy(grid, Growth(grid, n), e, i)
                             && gs[k] == Growth(grid, n)(i, Pow2(e)).value;
      assert GrowsFull(grid, n, e, i);
    }
  }

  /** Every full-size growth from a 1-cell, at every size, is in the list
      the passes produce. */
  lemma FullGrowthsListed(grid: seq<bool>, n: nat)
    ensures forall e: nat, i: nat | e <= n && i < Pow2(n) && GrowsFull(grid, n, e, i) ::
              FindPrimeGroup(grid, i, Pow2(e), n).value in ScanSizes(grid, n, Growth(grid, n), n, [])
  {
    GrowthAcceptsCandidates(grid, n);
    forall e: nat, i: nat | e <= n && i < Pow2(n) && GrowsFull(grid, n, e, i)
      ensures FindPrimeGroup(grid, i, Pow2(e), n).value in ScanSizes(grid, n, Growth(grid, n), n, [])
    {
      assert GrowsFullBy(grid, Growth(grid, n), e, i);
      ScanSizesFullAt(grid, n, Growth(grid, n), n, [], e, i);
    }
  }
}

=== FILE: kmap.dfy ===
/** `simplifyKMap`, the explanation it attaches, and the input rule of
    `solveKMap`: the minimiser from a minterm list to a sum of products. */
module KMap {
  import opened Wrappers
  import opened Bits
  import opened Seqs
  import opened Grid
  import opened Adjacency
  import opened GroupFinder
  import opened CoverSelector
  import opened Semantics
  import opened Terms
  import opened Laws

  /** One group of the explanation: its 1-based number, its cells, its term
      and the law named for its size. The free-text `details` line is not
      modelled. */
  datatype Step = Step(number: nat, cells: seq<nat>, term: string, law: Option<Law>)

  datatype Explanation =
    | AlwaysZero      // 'No minterms selected - function is always 0'
    | AlwaysOne       // 'All minterms selected - function is always 1'
    | NoGroups        // 'No groups formed.'
    | Steps(steps: seq<Step>)

  /** The object `simplifyKMap` returns: the two short-circuit results carry
      no candidate list and no minterms. */
  datatype Solution =
    | Constant(expression: string, simplifiedForm: string, groups: seq<Group>, explanation: Explanation)
    | Minimised(expression: string, simplifiedForm: string, groups: seq<Group>,
                allPrimeImplicants: seq<Group>, minterms: seq<nat>, explanation: Explanation)

  /** The `groups.forEach` of `generateExplanation`, from group `idx` on. */
  function ExplainFrom(groups: seq<Group>, n: nat, idx: nat): (steps: seq<Step>)
    requires idx <= |groups|
    ensures |steps| == |groups| - idx
    ensures forall k | 0 <= k < |steps| ::
              && steps[k].number == idx + k + 1
              && steps[k].cells == groups[idx + k].cells
              && steps[k].term == GenerateTerm(groups[idx + k], n)
              && steps[k].law == ExplanationLaw(|groups[idx + k].cells|)
    decreases |groups| - idx
  {
    if idx == |groups| then []
    else
      var g := groups[idx];
      [Step(idx + 1, g.cells, GenerateTerm(g, n), ExplanationLaw(|g.cells|))] + ExplainFrom(groups, n, idx + 1)
  }

  /** `generateExplanation`: no groups give the "no groups formed" note;
      otherwise one step per group, numbered from 1, whose law is named
      exactly when the group's size is a power of two up to sixteen, and
      then eliminates as many variables as that size says. */
  function GenerateExplanation(groups: seq<Group>, n: nat): (explanation: Explanation)
    ensures explanation.NoGroups? <==> groups == []
    ensures explanation.Steps? <==> groups != []
    ensures explanation.Steps? ==>
              && |explanation.steps| == |groups|
              && forall k | 0 <= k < |groups| ::
                   var step := explanation.steps[k];
                   && step.number == k + 1
                   && step.cells == groups[k].cells
                   && step.term == GenerateTerm(groups[k], n)
                   && step.law == ExplanationLaw(|groups[k].cells|)
                   && (step.law.Some? <==> IsPow2(|step.cells|) && |step.cells| <= 16)
                   && (step.law.Some? ==> Pow2(EliminatedVariables(step.law.value)) == |step.cells|)
  {
    var explanation := if groups == [] then NoGroups else Steps(ExplainFrom(groups, n, 0));
    forall k | 0 <= k < |groups|
      ensures ExplanationLaw(|groups[k].cells|).Some? <==> IsPow2(|groups[k].cells|) && |groups[k].cells| <= 16
      ensures ExplanationLaw(|groups[k].cells|).Some? ==>
                Pow2(EliminatedVariables(ExplanationLaw(|groups[k].cells|).value)) == |groups[k].cells|
    {
      LawTablesCoverPowersOfTwo(|groups[k].cells|);
      if ExplanationLaw(|groups[k].cells|).Some? {
        ExplanationLawMatchesSize(|groups[k].cells|);
      }
    }
    explanation
  }

  /** The terms of the selected groups, in order, with the empty ones
      dropped. */
  function NonEmptyTerms(groups: seq<Group>, n: nat): (terms: seq<string>)
    ensures forall k | 0 <= k < |terms| :: terms[k] != "" && NoSpace(terms[k])
    ensures forall k | 0 <= k < |terms| :: exists j | 0 <= j < |groups| :: terms[k] == GenerateTerm(groups[j], n)
    ensures forall j | 0 <= j < |groups| && GenerateTerm(groups[j], n) != "" :: GenerateTerm(groups[j], n) in terms
    decreases |groups|
  {
    if groups == [] then []
    else
      var t := GenerateTerm(groups[0], n);
      var rest := NonEmptyTerms(groups[1..], n);
      TermNoSpace(groups[0], n);
      assert forall j | 1 <= j < |groups| :: groups[j] == groups[1..][j - 1];
      if t != "" then [t] + rest else rest
  }

  /** The minterms accepted by `simplifyKMap`'s only caller: ascending, no
      repeats, each below 2^n. */
  ghost predicate ValidMinterms(minterms: seq<nat>, n: nat)
  {
    StrictlyIncreasing(minterms) && forall k | 0 <= k < |minterms| :: minterms[k] < Pow2(n)
  }

  /** The non-empty terms of the selected groups joined with `" + "`, or
      `0` when there are none; never the empty string. */
  function Assemble(selected: seq<Group>, n: nat): (expression: string)
    ensures expression != ""
  {
    var terms := NonEmptyTerms(selected, n);
    JoinSumNonEmpty(terms);
    if terms == [] then "0" else JoinSum(terms)
  }

  /** Joining non-empty terms never gives the empty string. */
  lemma JoinSumNonEmpty(terms: seq<string>)
    requires forall k | 0 <= k < |terms| :: terms[k] != ""
    ensures terms != [] ==> JoinSum(terms) != ""
  {
    if |terms| > 1 {
      assert |JoinSum(terms)| >= |terms[0]|;
    }
  }

  /** `simplifyKMap`. Past the two short-circuits the candidates are the
      groups the finder grows in the grid of the minterms, and the selected
      groups are the greedy cover of them. They cover exactly the minterms,
      there are no more of them than minterms, and the fallback to `0` for
      an empty expression never fires. */
  function SimplifyKMap(minterms: seq<nat>, n: nat): (result: Solution)
    requires ValidMinterms(minterms, n)
    ensures result.simplifiedForm == "F = " + result.expression
    ensures |minterms| == 0 ==> result == Constant("0", "F = 0", [], AlwaysZero)
    ensures |minterms| == Pow2(n) ==> result == Constant("1", "F = 1", [], AlwaysOne)
    ensures 0 < |minterms| < Pow2(n) ==>
              && result.Minimised?
              && result.minterms == minterms
              && result.allPrimeImplicants == FindAllPrimeImplicants(BuildGrid(minterms, n), n)
              && result.groups == FindEssentialPrimeImplicants(result.allPrimeImplicants, minterms)
              && CellsOf(result.groups) == CellSet(minterms)
              && |result.groups| <= |minterms|
              && (forall k | 0 <= k < |result.groups| :: result.groups[k] in result.allPrimeImplicants)
              && (forall k | 0 <= k < |result.groups| :: GroupFacts(minterms, n, result.groups[k]))
              && result.expression == Assemble(result.groups, n)
              && result.explanation == GenerateExplanation(result.groups, n)
  {
    if |minterms| == 0 then Constant("0", "F = 0", [], AlwaysZero)
    else if |minterms| == Pow2(n) then Constant("1", "F = 1", [], AlwaysOne)
    else
      var groups := FindAllPrimeImplicants(BuildGrid(minterms, n), n);
      var selected := FindEssentialPrimeImplicants(groups, minterms);
      var expression := Assemble(selected, n);
      SelectedGroupFacts(minterms, n);
      Minimised(if expression == "" then "0" else expression, "F = " + expression,
                selected, groups, minterms, GenerateExplanation(selected, n))
  }

  /** The greedy cover of the candidates covers exactly the minterms with
      no more groups than minterms, and each selected group is a candidate
      of the map of the minterms. */
  lemma SelectedGroupFacts(minterms: seq<nat>, n: nat)
    requires ValidMinterms(minterms, n)
    ensures var groups := FindAllPrimeImplicants(BuildGrid(minterms, n), n);
            var selected := FindEssentialPrimeImplicants(groups, minterms);
            && CellsOf(selected) == CellSet(minterms)
            && |selected| <= |minterms|
            && (forall k | 0 <= k < |selected| :: selected[k] in groups)
            && (forall k | 0 <= k < |selected| :: GroupFacts(minterms, n, selected[k]))
  {
    var groups := FindAllPrimeImplicants(BuildGrid(minterms, n), n);
    var selected := FindEssentialPrimeImplicants(groups, minterms);
    CandidatesCoverMinterms(minterms, n);
    StrictIsDistinct(minterms);
    forall k | 0 <= k < |selected|
      ensures GroupFacts(minterms, n, selected[k])
    {
      CandidateFacts(minterms, n, selected[k]);
    }
  }

  lemma StrictIsDistinct(s: seq<nat>)
    requires StrictlyIncreasing(s)
    ensures Distinct(s)
  {
  }

  /** The candidates of a map cover exactly its minterms: each candidate
      holds only 1-cells, and each 1-cell is a singleton candidate. */
  lemma CandidatesCoverMinterms(minterms: seq<nat>, n: nat)
    requires ValidMinterms(minterms, n)
    ensures CellsOf(FindAllPrimeImplicants(BuildGrid(minterms, n), n)) == CellSet(minterms)
  {
    var grid := BuildGrid(minterms, n);
    var groups := FindAllPrimeImplicants(grid, n);
    CellsOfMembers(groups);
    forall c | c in CellsOf(groups)
      ensures c in minterms
    {
      var k :| 0 <= k < |groups| && c in groups[k].cells;
      assert IsOne(grid, c);
    }
    forall c | c in minterms
      ensures c in CellsOf(groups)
    {
      assert grid[c];
      assert Group([c]) in groups;
      var k :| 0 <= k < |groups| && groups[k] == Group([c]);
      assert c in groups[k].cells;
    }
  }

  /** What a candidate of the map of `minterms` is: an ascending list of
      distinct minterms of power-of-two length, no longer than the minterm
      list; a pair is two cells one bit apart, and for two variables a
      pair of table neighbours. */
  ghost predicate GroupFacts(minterms: seq<nat>, n: nat, g: Group)
  {
    && StrictlyIncreasing(g.cells) && IsPow2(|g.cells|) && |g.cells| >= 1
    && (forall c | c in g.cells :: c in minterms && c < Pow2(n))
    && |g.cells| <= |minterms|
    && (2 <= n <= 4 && |g.cells| == 2 ==> OneBitApart(g.cells[0], g.cells[1]))
    && (n == 2 ==> |g.cells| == 1 || (|g.cells| == 2 && g.cells[1] in Adj2(g.cells[0])))
  }

  lemma CandidateFacts(minterms: seq<nat>, n: nat, g: Group)
    requires ValidMinterms(minterms, n)
    requires g in FindAllPrimeImplicants(BuildGrid(minterms, n), n)
    ensures GroupFacts(minterms, n, g)
  {
    var grid := BuildGrid(minterms, n);
    CandidateListedFacts(grid, n, FindAllPrimeImplicants(grid, n), g);
    GroupOfMinterms(minterms, n, g);
  }

  /** A group of the finder's list, read off its contract. */
  lemma CandidateListedFacts(grid: seq<bool>, n: nat, groups: seq<Group>, g: Group)
    requires g in groups && groups == FindAllPrimeImplicants(grid, n)
    ensures StrictlyIncreasing(g.cells) && IsPow2(|g.cells|) && |g.cells| <= Pow2(n)
    ensures AllOnes(grid, g.cells)
    ensures 2 <= n <= 4 && |g.cells| == 2 ==> OneBitApart(g.cells[0], g.cells[1])
    ensures n == 2 ==> |g.cells| == 1 || (|g.cells| == 2 && g.cells[1] in Adj2(g.cells[0]))
  {
  }

  /** An ascending power-of-two list of 1-cells of the map of `minterms`
      is a list of minterms no longer than the minterm list. */
  lemma GroupOfMinterms(minterms: seq<nat>, n: nat, g: Group)
    requires ValidMinterms(minterms, n)
    requires StrictlyIncreasing(g.cells) && IsPow2(|g.cells|) && |g.cells| <= Pow2(n)
    requires AllOnes(BuildGrid(minterms, n), g.cells)
    requires 2 <= n <= 4 && |g.cells| == 2 ==> OneBitApart(g.cells[0], g.cells[1])
    requires n == 2 ==> |g.cells| == 1 || (|g.cells| == 2 && g.cells[1] in Adj2(g.cells[0]))
    ensures GroupFacts(minterms, n, g)
  {
    var grid := BuildGrid(minterms, n);
    assert forall c | c in g.cells :: IsOne(grid, c);
    StrictIsDistinct(g.cells);
    StrictIsDistinct(minterms);
    DistinctCard(g.cells);
    DistinctCard(minterms);
    SubsetCard(CellSet(g.cells), CellSet(minterms));
    assert !IsPow2(0);
  }

  /** What the expression means: it holds at `m` exactly when the term of
      some selected group does. The dropped empty terms hold nowhere, and
      the `'0'` that replaces an empty sum holds nowhere either. */
  lemma ExpressionMeaning(selected: seq<Group>, n: nat, m: nat)
    ensures Holds(Assemble(selected, n), n, m) <==>
              exists j | 0 <= j < |selected| :: Denotes(GenerateTerm(selected[j], n), n, m)
  {
    var terms := NonEmptyTerms(selected, n);
    if terms == [] {
      SingleTerm('0');
      forall j | 0 <= j < |selected|
        ensures !Denotes(GenerateTerm(selected[j], n), n, m)
      {
        assert GenerateTerm(selected[j], n) == "";
      }
    } else {
      HoldsJoin(terms, n, m);
    }
  }

  /** A one-letter expression is a single term. */
  lemma SingleTerm(c: char)
    requires c != ' '
    ensures SplitSum([c]) == [[c]]
  {
    assert [c][1..] == [];
    assert SplitSum([]) == [""];
    assert [c] + "" == [c] && [""][1..] == [];
  }

  /** Two numbers that rise strictly from index to index sit at or above
      their index. */
  lemma {:induction false} StrictLowerBound(s: seq<nat>, k: nat)
    requires StrictlyIncreasing(s) && k < |s|
    ensures s[k] >= k
    decreases k
  {
    if k > 0 {
      StrictLowerBound(s, k - 1);
    }
  }

  lemma {:induction false} StrictUpperBound(s: seq<nat>, bound: nat, k: nat)
    requires StrictlyIncreasing(s) && k < |s|
    requires forall i | 0 <= i < |s| :: s[i] < bound
    ensures s[k] + |s| - k <= bound
    decreases |s| - k
  {
    if k + 1 < |s| {
      StrictUpperBound(s, bound, k + 1);
    }
  }

  /** A valid list has at most 2^n minterms. */
  lemma MintermsFit(minterms: seq<nat>, n: nat)
    requires ValidMinterms(minterms, n)
    ensures |minterms| <= Pow2(n)
  {
    if |minterms| > 0 {
      StrictUpperBound(minterms, Pow2(n), 0);
    }
  }

  /** A strictly increasing list of 2^n minterms below 2^n holds every cell,
      so the constant-1 short-circuit is taken exactly when every cell is a
      minterm. */
  lemma AllCellsListed(minterms: seq<nat>, n: nat)
    requires ValidMinterms(minterms, n) && |minterms| == Pow2(n)
    ensures forall m: nat | m < Pow2(n) :: m in minterms
  {
    forall m: nat | m < Pow2(n)
      ensures m in minterms
    {
      StrictLowerBound(minterms, m);
      StrictUpperBound(minterms, Pow2(n), m);
      assert minterms[m] == m;
    }
  }

  /** The two short-circuits are exact: `'0'` holds nowhere and `'1'`
      everywhere, and that is where the minterms are. */
  lemma ConstantCasesExact(minterms: seq<nat>, n: nat)
    requires ValidMinterms(minterms, n) && (|minterms| == 0 || |minterms| == Pow2(n))
    ensures forall m: nat | m < Pow2(n) :: Holds(SimplifyKMap(minterms, n).expression, n, m) <==> m in minterms
  {
    if |minterms| == 0 {
      SingleTerm('0');
    } else {
      SingleTerm('1');
      AllCellsListed(minterms, n);
      forall m: nat | m < Pow2(n)
        ensures Holds("1", n, m)
      {
        assert Denotes(SplitSum("1")[0], n, m);
      }
    }
  }

  /** When every selected group's term names its cells and the groups
      cover the minterms, the expression holds exactly at the minterms. */
  lemma ExactFromNames(minterms: seq<nat>, n: nat, selected: seq<Group>)
    requires CellsOf(selected) == CellSet(minterms)
    requires forall j | 0 <= j < |selected| :: Names(GenerateTerm(selected[j], n), n, CellSet(selected[j].cells))
    ensures forall m: nat | m < Pow2(n) :: Holds(Assemble(selected, n), n, m) <==> m in minterms
  {
    CellsOfMembers(selected);
    forall m: nat | m < Pow2(n)
      ensures Holds(Assemble(selected, n), n, m) <==> m in minterms
    {
      ExpressionMeaning(selected, n, m);
      assert m in minterms <==> m in CellsOf(selected);
    }
  }

  /** For two variables the expression is exact: it holds at a cell iff the
      cell is a minterm. Every 2-variable candidate is a singleton or a pair
      of table neighbours, and both are named exactly. */
  lemma TwoVarExact(minterms: seq<nat>)
    requires ValidMinterms(minterms, 2)
    ensures forall m: nat | m < 4 :: Holds(SimplifyKMap(minterms, 2).expression, 2, m) <==> m in minterms
  {
    assert Pow2(2) == 4;
    MintermsFit(minterms, 2);
    if |minterms| == 0 || |minterms| == 4 {
      ConstantCasesExact(minterms, 2);
    } else {
      var r := SimplifyKMap(minterms, 2);
      forall j | 0 <= j < |r.groups|
        ensures Names(GenerateTerm(r.groups[j], 2), 2, CellSet(r.groups[j].cells))
      {
        TwoVarGroupNames(minterms, r.groups[j]);
      }
      ExactFromNames(minterms, 2, r.groups);
    }
  }

  /** A 2-variable candidate's term names its cells. */
  lemma TwoVarGroupNames(minterms: seq<nat>, g: Group)
    requires GroupFacts(minterms, 2, g)
    ensures Names(GenerateTerm(g, 2), 2, CellSet(g.cells))
  {
    assert Pow2(2) == 4;
    assert g.cells[0] in g.cells;
    if |g.cells| == 1 {
      assert g == Group([g.cells[0]]);
      TwoVarSingletonNames(g.cells[0]);
    } else {
      assert g == Group([g.cells[0], g.cells[1]]);
      TwoVarPairNames(g.cells[0], g.cells[1]);
    }
  }

  /** For four variables the expression is sound: where it holds there is
      a minterm. Only singletons and the whole map get non-empty terms, and
      the whole map never reaches the cover. */
  lemma FourVarSound(minterms: seq<nat>)
    requires ValidMinterms(minterms, 4)
    ensures forall m: nat | m < 16 :: Holds(SimplifyKMap(minterms, 4).expression, 4, m) ==> m in minterms
  {
    assert Pow2(4) == 16;
    MintermsFit(minterms, 4);
    if |minterms| == 0 || |minterms| == 16 {
      ConstantCasesExact(minterms, 4);
    } else {
      var r := SimplifyKMap(minterms, 4);
      var selected := r.groups;
      forall m: nat | m < 16 && Holds(r.expression, 4, m)
        ensures m in minterms
      {
        ExpressionMeaning(selected, 4, m);
        var j :| 0 <= j < |selected| && Denotes(GenerateTerm(selected[j], 4), 4, m);
        FourVarGroupSound(minterms, selected[j], m);
      }
    }
  }

  lemma FourVarGroupSound(minterms: seq<nat>, g: Group, m: nat)
    requires |minterms| < 16 && GroupFacts(minterms, 4, g)
    requires m < 16 && Denotes(GenerateTerm(g, 4), 4, m)
    ensures m in minterms
  {
    assert Pow2(4) == 16;
    assert g.cells[0] in g.cells;
    if |g.cells| == 1 {
      assert g == Group([g.cells[0]]);
      FourVarSingletonNames(g.cells[0]);
    } else if |g.cells| in {2, 4, 8} {
      FourVarStubsEmpty(g);
    }
  }

  /** For three variables the expression is sound up to the singleton
      table's Gray-order indexing: where it holds, either the cell is a
      minterm or the cell it is swapped with (2 with 3, 6 with 7) is. */
  lemma ThreeVarSoundUpToGray(minterms: seq<nat>)
    requires ValidMinterms(minterms, 3)
    ensures forall m: nat | m < 8 :: Holds(SimplifyKMap(minterms, 3).expression, 3, m) ==>
              m in minterms || Gray3(m) in minterms
  {
    assert Pow2(3) == 8;
    MintermsFit(minterms, 3);
    if |minterms| == 0 || |minterms| == 8 {
      ConstantCasesExact(minterms, 3);
    } else {
      var r := SimplifyKMap(minterms, 3);
      var selected := r.groups;
      forall m: nat | m < 8 && Holds(r.expression, 3, m)
        ensures m in minterms || Gray3(m) in minterms
      {
        ExpressionMeaning(selected, 3, m);
        var j :| 0 <= j < |selected| && Denotes(GenerateTerm(selected[j], 3), 3, m);
        ThreeVarGroupSound(minterms, selected[j], m);
      }
    }
  }

  lemma ThreeVarGroupSound(minterms: seq<nat>, g: Group, m: nat)
    requires |minterms| < 8 && GroupFacts(minterms, 3, g)
    requires m < 8 && Denotes(GenerateTerm(g, 3), 3, m)
    ensures m in minterms || Gray3(m) in minterms
  {
    assert Pow2(3) == 8;
    StrictIsDistinct(g.cells);
    assert g.cells[0] in g.cells;
    assert |g.cells| in {1, 2, 4} by {
      assert IsPow2(|g.cells|) && |g.cells| < 8;
      assert |g.cells| !in {3, 5, 6, 7} by {
        assert !IsPow2(3) && !IsPow2(5) && !IsPow2(6) && !IsPow2(7);
      }
    }
    if |g.cells| == 1 {
      ThreeVarSingletonSound(g, m);
    } else {
      ThreeVarWideSound(g, m);
      assert m in minterms;
    }
  }

  /** A two- or four-cell group's term holds only at the group's cells. */
  lemma ThreeVarWideSound(g: Group, m: nat)
    requires |g.cells| in {2, 4} && Distinct(g.cells) && StrictlyIncreasing(g.cells)
    requires forall c | c in g.cells :: c < 8
    requires |g.cells| == 2 ==> OneBitApart(g.cells[0], g.cells[1])
    requires m < 8 && Denotes(GenerateTerm(g, 3), 3, m)
    ensures m in g.cells
  {
    assert Pow2(3) == 8;
    if |g.cells| == 2 {
      assert g.cells[1] in g.cells;
      assert g == Group([g.cells[0], g.cells[1]]);
      ThreeVarPairNames(g.cells[0], g.cells[1]);
    } else {
      ThreeVarQuadNames(g.cells);
    }
  }

  /** A one-cell group's term holds only at the cell's Gray partner. */
  lemma ThreeVarSingletonSound(g: Group, m: nat)
    requires |g.cells| == 1 && g.cells[0] < 8
    requires m < 8 && Denotes(GenerateTerm(g, 3), 3, m)
    ensures Gray3(m) == g.cells[0]
  {
    var c := g.cells[0];
    assert g == Group([c]);
    assert Pow2(3) == 8;
    ThreeVarSingletonNames(c);
    Gray3Involution(c);
  }

  /** Past the short-circuits, for up to four variables, the explanation
      has one step per selected group and every step names a law whose
      eliminated variables account for the group's size. */
  lemma ExplanationHasLaws(minterms: seq<nat>, n: nat)
    requires ValidMinterms(minterms, n) && n <= 4 && 0 < |minterms| < Pow2(n)
    ensures var r := SimplifyKMap(minterms, n);
            && r.explanation.Steps?
            && |r.explanation.steps| == |r.groups|
            && forall k | 0 <= k < |r.explanation.steps| ::
                 && r.explanation.steps[k].law.Some?
                 && Pow2(EliminatedVariables(r.explanation.steps[k].law.value)) == |r.explanation.steps[k].cells|
  {
    var r := SimplifyKMap(minterms, n);
    assert r.groups != [] by {
      assert minterms[0] in CellSet(minterms);
    }
    Pow2Monotone(n, 4);
    assert Pow2(4) == 16;
    forall k | 0 <= k < |r.groups|
      ensures ExplanationLaw(|r.groups[k].cells|).Some?
      ensures Pow2(EliminatedVariables(ExplanationLaw(|r.groups[k].cells|).value)) == |r.groups[k].cells|
    {
      LawTablesCoverPowersOfTwo(|r.groups[k].cells|);
      ExplanationLawMatchesSize(|r.groups[k].cells|);
    }
  }

  /** Why `solveKMap` refuses a parsed list. */
  datatype InputError =
    | OutOfRange(maxMinterm: nat)   // 'Minterms must be between 0 and ...'
    | NoMinterms                    // 'Please enter valid minterms'

  function ToNats(s: seq<int>): (r: seq<nat>)
    requires forall k | 0 <= k < |s| :: s[k] >= 0
    ensures |r| == |s| && forall k | 0 <= k < |s| :: r[k] == s[k]
  {
    if s == [] then [] else [s[0] as nat] + ToNats(s[1..])
  }

  /** The input with repeats removed, sorted ascending. */
  function Normalise(xs: seq<nat>): (r: seq<nat>)
    ensures StrictlyIncreasing(r)
    ensures forall x | x in r :: x in xs
    ensures forall x | x in xs :: x in r
  {
    var unique := Dedup(xs);
    var sorted := SortBy(unique, Ascending);
    SortBySorted(unique, Ascending);
    SortedDistinctIsStrict(sorted);
    SameMembers(sorted, unique);
    SameMembers(unique, sorted);
    sorted
  }

  predicate InRange(x: int, n: nat)
  {
    0 <= x <= Pow2(n) - 1
  }

  predicate AllInRange(parsed: seq<int>, n: nat)
  {
    forall k | 0 <= k < |parsed| :: InRange(parsed[k], n)
  }

  /** The input rule of `solveKMap` on the numbers parsed from the text: a
      value outside [0, 2^n - 1] is refused first, then an empty list;
      otherwise duplicates are dropped and the rest sorted ascending. */
  function CheckMinterms(parsed: seq<int>, n: nat): (r: Result<seq<nat>, InputError>)
    ensures r.Failure? && r.error.OutOfRange? <==> exists k | 0 <= k < |parsed| :: !InRange(parsed[k], n)
    ensures r.Failure? && r.error.OutOfRange? ==> r.error.maxMinterm == Pow2(n) - 1
    ensures r == Failure(NoMinterms) <==> parsed == []
    ensures r.Success? ==>
              && ValidMinterms(r.value, n) && |r.value| >= 1
              && (forall x: nat | x in r.value :: x in parsed)
              && (forall k | 0 <= k < |parsed| :: parsed[k] in r.value)
  {
    if !AllInRange(parsed, n) then Failure(OutOfRange(Pow2(n) - 1))
    else if |parsed| == 0 then Failure(NoMinterms)
    else
      var minterms := Normalise(ToNats(parsed));
      AcceptedList(parsed, n, minterms);
      Success(minterms)
  }

  lemma AcceptedList(parsed: seq<int>, n: nat, minterms: seq<nat>)
    requires AllInRange(parsed, n) && |parsed| > 0
    requires minterms == Normalise(ToNats(parsed))
    ensures ValidMinterms(minterms, n) && |minterms| >= 1
    ensures forall x: nat | x in minterms :: x in parsed
    ensures forall k | 0 <= k < |parsed| :: parsed[k] in minterms
  {
    var nats := ToNats(parsed);
    ToNatsMembers(parsed);
    assert nats[0] in minterms;
    forall k | 0 <= k < |minterms|
      ensures minterms[k] < Pow2(n)
    {
      assert minterms[k] in nats;
    }
  }

  lemma ToNatsMembers(parsed: seq<int>)
    requires forall k | 0 <= k < |parsed| :: parsed[k] >= 0
    ensures forall x: nat | x in ToNats(parsed) :: x in parsed
    ensures forall k | 0 <= k < |parsed| :: parsed[k] in ToNats(parsed)
  {
    var nats := ToNats(parsed);
    forall x: nat | x in nats
      ensures x in parsed
    {
      var j :| 0 <= j < |nats| && nats[j] == x;
      assert parsed[j] == x;
    }
    forall k | 0 <= k < |parsed|
      ensures parsed[k] in nats
    {
      assert nats[k] == parsed[k];
    }
  }

  /** `solveKMap` after parsing: check the list, then minimise it. An
      accepted list is never empty, so the constant-0 result is never
      shown. */
  function SolveKMap(parsed: seq<int>, n: nat): (r: Result<Solution, InputError>)
    ensures r.Failure? <==> CheckMinterms(parsed, n).Failure?
    ensures r.Failure? ==> r.error == CheckMinterms(parsed, n).error
    ensures r.Success? ==> r.value.explanation != AlwaysZero
    ensures r.Success? ==> r.value.expression != ""
    ensures r.Success? ==> r.value == SimplifyKMap(CheckMinterms(parsed, n).value, n)
  {
    match CheckMinterms(parsed, n)
    case Failure(e) => Failure(e)
    case Success(minterms) => Success(SimplifyKMap(minterms, n))
  }
}

=== FILE: laws.dfy ===
/** The Boolean law a group of a given size is said to apply, in the two
    tables the program keeps: the step-by-step explanation and the group
    list. The HTML wording of each entry is not modelled. */
module Laws {
  import opened Wrappers
  import opened Bits

  datatype Law =
    | NoSimplification       // one cell: a single minterm
    | Adjacency              // two cells: X·Y + X·Y' = X
    | ConsensusAdjacency     // four cells, in the explanation
    | ConsensusAbsorption    // four cells, in the group list
    | FullElimination        // eight cells
    | Tautology              // sixteen cells: F = 1
    | SimplificationApplied  // the group list's fallback

  /** The `if`/`else if` chain of `generateExplanation`; `law` stays `''`
      (here `None`) for any other size. */
  function ExplanationLaw(size: nat): Option<Law>
  {
    if size == 1 then Some(NoSimplification)
    else if size == 2 then Some(Adjacency)
    else if size == 4 then Some(ConsensusAdjacency)
    else if size == 8 then Some(FullElimination)
    else if size == 16 then Some(Tautology)
    else None
  }

  /** `getBooleanLaw`: the law for a listed size, and the generic
      "Simplification Applied" for any other size. */
  function BooleanLaw(size: nat): Law
  {
    match size
    case 1 => NoSimplification
    case 2 => Adjacency
    case 4 => ConsensusAbsorption
    case 8 => FullElimination
    case 16 => Tautology
    case _ => SimplificationApplied
  }

  /** How many variables the explanation says the group eliminates: none for
      a single cell, one for two cells, two for four, three for eight, and
      all four for the full map. */
  function EliminatedVariables(law: Law): nat
  {
    match law
    case NoSimplification => 0
    case Adjacency => 1
    case ConsensusAdjacency => 2
    case ConsensusAbsorption => 2
    case FullElimination => 3
    case Tautology => 4
    case SimplificationApplied => 0
  }

  /** Both tables have an entry exactly for the power-of-two sizes up to
      sixteen, the only sizes a group of a map of at most four variables
      can have. */
  lemma LawTablesCoverPowersOfTwo(size: nat)
    ensures ExplanationLaw(size).Some? <==> IsPow2(size) && size <= 16
    ensures BooleanLaw(size) != SimplificationApplied <==> IsPow2(size) && size <= 16
  {
    if IsPow2(size) && size <= 16 {
      SmallPowersOfTwo(size);
    }
  }

  lemma {:induction false} SmallPowersOfTwo(size: nat)
    requires IsPow2(size) && size <= 16
    ensures size in {1, 2, 4, 8, 16}
  {
    if size > 1 {
      assert size % 2 == 0 && IsPow2(size / 2);
      SmallPowersOfTwo(size / 2);
    }
  }

  /** Each law of the explanation eliminates as many variables as the size
      of its group is a power of two. */
  lemma ExplanationLawMatchesSize(size: nat)
    requires ExplanationLaw(size).Some?
    ensures Pow2(EliminatedVariables(ExplanationLaw(size).value)) == size
  {
  }

  /** The two tables name the same law except for groups of four, which the
      explanation calls consensus and adjacency and the group list calls
      consensus and absorption. */
  lemma LawTablesAgree(size: nat)
    requires ExplanationLaw(size).Some?
    ensures ExplanationLaw(size).value == BooleanLaw(size) <==> size != 4
  {
  }
}

=== FILE: semantics.dfy ===
/** What a sum-of-products string means: an evaluator over the text the
    minimiser prints, independent of how the text was produced. Variable
    `A` is the most significant bit of a minterm index, `B` the next, and
    so on; a letter followed by `'` is complemented. */
module Semantics {
  import opened Bits

  /** Bit `k` of `m`, counting from the least significant bit. */
  function Bit(m: nat, k: nat): nat
  {
    (m / Pow2(k)) % 2
  }

  /** The letter of variable `v` (0 for `A`). */
  function Letter(v: nat): char
    requires v < 26
  {
    ('A' as int + v) as char
  }

  /** A product of literals over `n` variables holds at minterm `m`. */
  predicate Literals(term: string, n: nat, m: nat)
    decreases |term|
  {
    if term == [] then true
    else if 'A' <= term[0] <= 'Z' then
      var v := term[0] as int - 'A' as int;
      var primed := |term| >= 2 && term[1] == '\'';
      var rest := if primed then term[2..] else term[1..];
      && v < n
      && Bit(m, n - 1 - v) == (if primed then 0 else 1)
      && Literals(rest, n, m)
    else false
  }

  /** A term holds at `m`: `1` everywhere, a non-empty product where all its
      literals hold, anything else (`0`, the empty string) nowhere. */
  predicate Denotes(term: string, n: nat, m: nat)
  {
    term == "1" || (term != [] && Literals(term, n, m))
  }

  /** The term holds at exactly the given cells of the `n`-variable map. */
  ghost predicate Names(term: string, n: nat, cells: set<nat>)
  {
    forall m: nat | m < Pow2(n) :: Denotes(term, n, m) <==> m in cells
  }

  /** The terms joined with `" + "` between them. */
  function JoinSum(terms: seq<string>): string
    decreases |terms|
  {
    if terms == [] then ""
    else if |terms| == 1 then terms[0]
    else terms[0] + " + " + JoinSum(terms[1..])
  }

  /** Splitting a sum back into its terms at every `" + "`. */
  function SplitSum(s: string): (parts: seq<string>)
    ensures |parts| >= 1
    decreases |s|
  {
    if |s| >= 3 && s[..3] == " + " then [""] + SplitSum(s[3..])
    else if s == [] then [""]
    else
      var rest := SplitSum(s[1..]);
      [[s[0]] + rest[0]] + rest[1..]
  }

  /** A sum holds at `m` when one of its terms does. */
  predicate Holds(expression: string, n: nat, m: nat)
  {
    var parts := SplitSum(expression);
    exists k | 0 <= k < |parts| :: Denotes(parts[k], n, m)
  }

  predicate NoSpace(t: string)
  {
    ' ' !in t
  }

  /** A space-free prefix stays glued to the first part of what follows. */
  lemma {:induction false} SplitPrefix(t: string, s: string)
    requires NoSpace(t)
    requires s == [] || (|s| >= 3 && s[..3] == " + ")
    ensures SplitSum(t + s) == [t + SplitSum(s)[0]] + SplitSum(s)[1..]
    decreases |t|
  {
    if t != [] {
      var u := t + s;
      assert t == [t[0]] + t[1..];
      assert u[0] == t[0] && u[0] != ' ';
      assert NoSpace(t[1..]);
      assert u[1..] == t[1..] + s;
      SplitPrefix(t[1..], s);
      assert [t[0]] + (t[1..] + SplitSum(s)[0]) == t + SplitSum(s)[0];
    } else {
      var parts := SplitSum(s);
      assert t + s == s && t + parts[0] == parts[0];
      assert parts == [parts[0]] + parts[1..];
    }
  }

  /** Splitting a joined list of space-free terms gives the list back. */
  lemma {:induction false} SplitJoin(terms: seq<string>)
    requires |terms| >= 1
    requires forall k | 0 <= k < |terms| :: NoSpace(terms[k])
    ensures SplitSum(JoinSum(terms)) == terms
    decreases |terms|
  {
    if |terms| == 1 {
      SplitPrefix(terms[0], []);
      assert terms[0] + [] == terms[0];
    } else {
      var tail := JoinSum(terms[1..]);
      var sep := " + " + tail;
      assert JoinSum(terms) == terms[0] + sep;
      assert sep[..3] == " + " && sep[3..] == tail;
      SplitPrefix(terms[0], sep);
      SplitJoin(terms[1..]);
      assert SplitSum(sep) == [""] + SplitSum(tail);
      assert SplitSum(sep)[0] == "" && SplitSum(sep)[1..] == terms[1..];
      assert terms[0] + "" == terms[0];
      assert terms == [terms[0]] + terms[1..];
    }
  }

  /** A joined sum holds exactly where one of its terms does. */
  lemma HoldsJoin(terms: seq<string>, n: nat, m: nat)
    requires |terms| >= 1
    requires forall k | 0 <= k < |terms| :: NoSpace(terms[k])
    ensures Holds(JoinSum(terms), n, m) <==> exists k | 0 <= k < |terms| :: Denotes(terms[k], n, m)
  {
    SplitJoin(terms);
  }

  /** A literal `v` or `v'`. */
  function Literal(on: bool, v: char): string
  {
    if on then [v] else [v, '\'']
  }

  /** Reading one literal off the front of a product. */
  lemma LiteralsCons(on: bool, v: nat, rest: string, n: nat, m: nat)
    requires v < 26
    requires rest == [] || rest[0] != '\''
    ensures Literals(Literal(on, Letter(v)) + rest, n, m) <==>
              v < n && Bit(m, n - 1 - v) == (if on then 1 else 0) && Literals(rest, n, m)
  {
    var term := Literal(on, Letter(v)) + rest;
    assert term[0] == Letter(v);
    if on {
      assert term[1..] == rest;
    } else {
      assert term[1] == '\'' && term[2..] == rest;
    }
  }

  lemma MulAtLeast(d: nat, x: nat)
    requires x >= 1
    ensures d * x >= d
  {
  }

  /** Euclidean division is unique. */
  lemma DivUnique(m: nat, d: nat, b: nat, t: nat)
    requires d > 0 && t < d && m == d * b + t
    ensures m / d == b
  {
    var q, r := m / d, m % d;
    assert m == d * q + r;
    if q > b {
      MulAtLeast(d, q - b);
      assert false;
    } else if q < b {
      MulAtLeast(d, b - q);
      assert false;
    }
  }

  lemma DivTwice(m: nat, q: nat)
    requires q >= 1
    ensures m / (2 * q) == (m / 2) / q
  {
    var a, r := m / 2, m % 2;
    var b, t := a / q, a % q;
    assert a == q * b + t;
    assert m == (2 * q) * b + (2 * t + r);
    DivUnique(m, 2 * q, b, 2 * t + r);
  }

  lemma BitShift(m: nat, k: nat)
    ensures Bit(m, k + 1) == Bit(m / 2, k)
  {
    assert Pow2(k + 1) == 2 * Pow2(k);
    DivTwice(m, Pow2(k));
  }

  /** `m` and `idx` agree on their `count` low bits. */
  ghost predicate AgreeBelow(m: nat, idx: nat, count: nat)
  {
    forall k | 0 <= k < count :: Bit(m, k) == Bit(idx, k)
  }

  /** Two numbers below 2^n that agree on their n low bits are equal. */
  lemma {:induction false} BitsDetermine(m: nat, idx: nat, n: nat)
    requires m < Pow2(n) && idx < Pow2(n) && AgreeBelow(m, idx, n)
    ensures m == idx
    decreases n
  {
    if n > 0 {
      assert Pow2(n) == 2 * Pow2(n - 1);
      forall k | 0 <= k < n - 1
        ensures Bit(m / 2, k) == Bit(idx / 2, k)
      {
        BitShift(m, k);
        BitShift(idx, k);
      }
      BitsDetermine(m / 2, idx / 2, n - 1);
      assert Bit(m, 0) == m % 2 && Bit(idx, 0) == idx % 2;
    }
  }

  /** The product of literals `v`, `v + 1`, ..., `n - 1` that holds at
      `idx` alone: the reference spelling of a minterm. */
  function MintermFrom(n: nat, idx: nat, v: nat): string
    requires n <= 26
    decreases n - v
  {
    if v >= n then [] else Literal(Bit(idx, n - 1 - v) == 1, Letter(v)) + MintermFrom(n, idx, v + 1)
  }

  function MintermTerm(n: nat, idx: nat): string
    requires n <= 26
  {
    MintermFrom(n, idx, 0)
  }

  lemma {:induction false} MintermFromHolds(n: nat, idx: nat, v: nat, m: nat)
    requires n <= 26 && v <= n
    ensures v < n ==> MintermFrom(n, idx, v) != [] && MintermFrom(n, idx, v)[0] == Letter(v)
    ensures Literals(MintermFrom(n, idx, v), n, m) <==> AgreeBelow(m, idx, n - v)
    decreases n - v
  {
    if v < n {
      var rest := MintermFrom(n, idx, v + 1);
      var on := Bit(idx, n - 1 - v) == 1;
      MintermFromHolds(n, idx, v + 1, m);
      assert rest == [] || rest[0] == Letter(v + 1);
      LiteralsCons(on, v, rest, n, m);
      assert (Literal(on, Letter(v)) + rest)[0] == Letter(v);
      assert (if on then 1 else 0) == Bit(idx, n - 1 - v);
      assert AgreeBelow(m, idx, n - v) <==>
             AgreeBelow(m, idx, n - v - 1) && Bit(m, n - 1 - v) == Bit(idx, n - 1 - v);
    }
  }

  /** The reference minterm spelling names exactly its cell. */
  lemma MintermNames(n: nat, idx: nat)
    requires 1 <= n <= 26 && idx < Pow2(n)
    ensures Names(MintermTerm(n, idx), n, {idx})
  {
    forall m: nat | m < Pow2(n)
      ensures Denotes(MintermTerm(n, idx), n, m) <==> m == idx
    {
      MintermFromHolds(n, idx, 0, m);
      if AgreeBelow(m, idx, n) {
        BitsDetermine(m, idx, n);
      }
      assert MintermTerm(n, idx)[0] == 'A';
    }
  }
}

=== FILE: seqs.dfy ===
/** Sequence vocabulary shared by the minimiser: duplicate-freedom, order,
    subsequences, JavaScript's stable `Array.prototype.sort` and
    set-based deduplication. */
module Seqs {

  predicate Distinct<T(==)>(s: seq<T>)
  {
    forall i, j | 0 <= i < j < |s| :: s[i] != s[j]
  }

  predicate StrictlyIncreasing(s: seq<nat>)
  {
    forall i, j | 0 <= i < j < |s| :: s[i] < s[j]
  }

  /** The elements of `s` appear in non-decreasing order of `key`. */
  predicate SortedBy<T>(s: seq<T>, key: T -> int)
  {
    forall i, j | 0 <= i < j < |s| :: key(s[i]) <= key(s[j])
  }

  /** The key of the numeric ascending sort. */
  function Ascending(x: nat): int
  {
    x
  }

  lemma PrefixTrans<T>(a: seq<T>, b: seq<T>, c: seq<T>)
    requires a <= b && b <= c
    ensures a <= c
  {
    assert c[..|b|] == b;
    assert c[..|a|] == b[..|a|];
  }

  lemma PrefixMember<T>(x: T, a: seq<T>, b: seq<T>)
    requires x in a && a <= b
    ensures x in b
  {
    var k :| 0 <= k < |a| && a[k] == x;
    assert b[..|a|] == a;
    assert b[k] == x;
  }

  /** `a` is `b` with some elements deleted. */
  predicate IsSubsequence<T(==)>(a: seq<T>, b: seq<T>)
    decreases |b|
  {
    if b == [] then a == []
    else (a != [] && a[0] == b[0] && IsSubsequence(a[1..], b[1..])) || IsSubsequence(a, b[1..])
  }

  lemma {:induction false} SubsequenceMembers<T>(a: seq<T>, b: seq<T>)
    requires IsSubsequence(a, b)
    ensures forall x | x in a :: x in b
    decreases |b|
  {
    if b != [] {
      if a != [] && a[0] == b[0] && IsSubsequence(a[1..], b[1..]) {
        SubsequenceMembers(a[1..], b[1..]);
        assert a == [a[0]] + a[1..];
      } else {
        SubsequenceMembers(a, b[1..]);
      }
    }
  }

  /** Deleting elements keeps a sorted sequence sorted. */
  lemma {:induction false} SubsequenceSorted<T>(a: seq<T>, b: seq<T>, key: T -> int)
    requires IsSubsequence(a, b) && SortedBy(b, key)
    ensures SortedBy(a, key)
    decreases |b|
  {
    if b != [] {
      assert SortedBy(b[1..], key) by {
        forall i, j | 0 <= i < j < |b[1..]|
          ensures key(b[1..][i]) <= key(b[1..][j])
        {
          assert b[1..][i] == b[i + 1] && b[1..][j] == b[j + 1];
        }
      }
      if a != [] && a[0] == b[0] && IsSubsequence(a[1..], b[1..]) {
        SubsequenceSorted(a[1..], b[1..], key);
        SubsequenceMembers(a[1..], b[1..]);
        forall i, j | 0 <= i < j < |a|
          ensures key(a[i]) <= key(a[j])
        {
          if i > 0 {
            assert a[1..][i - 1] == a[i] && a[1..][j - 1] == a[j];
          } else {
            assert a[j] == a[1..][j - 1];
            assert a[j] in b[1..];
            var l :| 0 <= l < |b[1..]| && b[1..][l] == a[j];
            assert key(b[0]) <= key(b[l + 1]);
          }
        }
      } else {
        SubsequenceSorted(a, b[1..], key);
      }
    }
  }

  /** Sequences with the same multiset have the same members. */
  lemma SameMembers<T>(a: seq<T>, b: seq<T>)
    requires multiset(a) == multiset(b)
    ensures forall x | x in a :: x in b
  {
    forall x | x in a
      ensures x in b
    {
      assert x in multiset(a);
    }
  }

  /** Places `x` before the first element whose key is not below its own,
      so `x` precedes every element of equal key. */
  function Insert<T(==)>(x: T, s: seq<T>, key: T -> int): (r: seq<T>)
    ensures multiset(r) == multiset(s) + multiset{x}
    decreases |s|
  {
    if s == [] || key(x) <= key(s[0]) then [x] + s
    else
      assert s == [s[0]] + s[1..];
      [s[0]] + Insert(x, s[1..], key)
  }

  lemma {:induction false} InsertSorted<T>(x: T, s: seq<T>, key: T -> int)
    requires SortedBy(s, key)
    ensures SortedBy(Insert(x, s, key), key)
    decreases |s|
  {
    if s != [] && key(x) > key(s[0]) {
      var t := Insert(x, s[1..], key);
      InsertSorted(x, s[1..], key);
      assert s == [s[0]] + s[1..];
      forall y | y in t
        ensures key(s[0]) <= key(y)
      {
        assert y in multiset(t);
      }
    }
  }

  lemma InsertDistinct<T>(x: T, s: seq<T>, key: T -> int)
    requires Distinct(s) && x !in s
    ensures Distinct(Insert(x, s, key))
  {
    var r := Insert(x, s, key);
    forall i, j | 0 <= i < j < |r|
      ensures r[i] != r[j]
    {
      if r[i] == r[j] {
        assert multiset(r)[r[i]] >= 2 by {
          assert r == r[..i] + [r[i]] + r[i + 1..j] + [r[j]] + r[j + 1..];
        }
        DistinctCount(s, r[i]);
      }
    }
  }

  lemma {:induction false} DistinctCount<T>(s: seq<T>, y: T)
    requires Distinct(s)
    ensures multiset(s)[y] <= 1
    decreases |s|
  {
    if s != [] {
      assert s == [s[0]] + s[1..];
      DistinctCount(s[1..], y);
    }
  }

  /** Stable insertion sort by `key`: the model of `Array.prototype.sort`
      with a numeric comparator, which ECMAScript 2019 requires to be stable. */
  function SortBy<T(==)>(s: seq<T>, key: T -> int): (r: seq<T>)
    ensures multiset(r) == multiset(s)
    decreases |s|
  {
    if s == [] then []
    else
      assert s == [s[0]] + s[1..];
      Insert(s[0], SortBy(s[1..], key), key)
  }

  /** The result of `SortBy` is ordered by the key and keeps the elements
      of its input, each as often. */
  lemma {:induction false} SortBySorted<T>(s: seq<T>, key: T -> int)
    ensures SortedBy(SortBy(s, key), key)
    ensures Distinct(s) ==> Distinct(SortBy(s, key))
    decreases |s|
  {
    if s != [] {
      SortBySorted(s[1..], key);
      InsertSorted(s[0], SortBy(s[1..], key), key);
      if Distinct(s) {
        assert s == [s[0]] + s[1..];
        assert Distinct(s[1..]);
        assert s[0] !in multiset(s[1..]);
        InsertDistinct(s[0], SortBy(s[1..], key), key);
      }
    }
  }

  /** Sorting an already sorted sequence leaves it unchanged. */
  lemma {:induction false} SortBySortedIsIdentity<T>(s: seq<T>, key: T -> int)
    requires SortedBy(s, key)
    ensures SortBy(s, key) == s
    decreases |s|
  {
    if s != [] {
      SortBySortedIsIdentity(s[1..], key);
      assert s == [s[0]] + s[1..];
    }
  }

  /** The elements of `s` whose key is `k`, in their original order. */
  function WithKey<T>(s: seq<T>, key: T -> int, k: int): seq<T>
    decreases |s|
  {
    if s == [] then []
    else (if key(s[0]) == k then [s[0]] else []) + WithKey(s[1..], key, k)
  }

  lemma {:induction false} InsertStable<T>(x: T, s: seq<T>, key: T -> int, k: int)
    ensures WithKey(Insert(x, s, key), key, k) == (if key(x) == k then [x] else []) + WithKey(s, key, k)
    decreases |s|
  {
    var r := Insert(x, s, key);
    if s == [] || key(x) <= key(s[0]) {
      assert r == [x] + s;
      assert r[1..] == s;
    } else {
      var t := Insert(x, s[1..], key);
      assert r == [s[0]] + t;
      assert r[0] == s[0] && r[1..] == t;
      InsertStable(x, s[1..], key, k);
      var head := if key(s[0]) == k then [s[0]] else [];
      var mid := if key(x) == k then [x] else [];
      assert WithKey(r, key, k) == head + WithKey(t, key, k);
      assert WithKey(s, key, k) == head + WithKey(s[1..], key, k);
      assert head == [] || mid == [];
    }
  }

  /** Sorting keeps the relative order of elements with equal keys. */
  lemma {:induction false} SortByStable<T>(s: seq<T>, key: T -> int, k: int)
    ensures WithKey(SortBy(s, key), key, k) == WithKey(s, key, k)
    decreases |s|
  {
    if s != [] {
      SortByStable(s[1..], key, k);
      InsertStable(s[0], SortBy(s[1..], key), key, k);
    }
  }

  /** Sorting an ascending pair leaves it unchanged. */
  lemma SortAscendingPair(a: nat, b: nat)
    requires a <= b
    ensures SortBy([a, b], Ascending) == [a, b]
  {
    assert SortedBy<nat>([a, b], Ascending);
    SortBySortedIsIdentity<nat>([a, b], Ascending);
  }

  /** A duplicate-free ascending sort is strictly increasing. */
  lemma SortedDistinctIsStrict(s: seq<nat>)
    requires SortedBy(s, Ascending) && Distinct(s)
    ensures StrictlyIncreasing(s)
  {
    forall i, j | 0 <= i < j < |s|
      ensures s[i] < s[j]
    {
      assert Ascending(s[i]) <= Ascending(s[j]);
    }
  }

  /** Set-based deduplication: the first occurrence of each element, in
      order. */
  function Dedup<T(==)>(s: seq<T>): (r: seq<T>)
    ensures Distinct(r)
    ensures forall x | x in r :: x in s
    ensures forall x | x in s :: x in r
    decreases |s|
  {
    if s == [] then []
    else
      var init := Dedup(s[..|s| - 1]);
      assert s == s[..|s| - 1] + [s[|s| - 1]];
      if s[|s| - 1] in init then init else init + [s[|s| - 1]]
  }
}

=== FILE: terms.dfy ===
/** `generateTerm` and its per-size helpers: the product term printed for a
    group. Tables are copied as the program has them, gaps included. */
module Terms {
  import opened Bits
  import opened Seqs
  import opened Grid
  import opened Adjacency
  import opened Semantics

  /** The 2-variable singleton table, empty for cells it does not list. */
  function Term2Var1(idx: nat): string
  {
    match idx
    case 0 => "A'B'"
    case 1 => "A'B"
    case 2 => "AB'"
    case 3 => "AB"
    case _ => ""
  }

  /** The 3-variable singleton list. It is written in map order (Gray
      order 000, 001, 011, 010, 100, 101, 111, 110) but indexed by the
      cell's value, so entries 2, 3, 6 and 7 name the neighbouring cell. */
  function Term3Var1(idx: nat): string
  {
    var terms := ["A'B'C'", "A'B'C", "A'BC", "A'BC'", "AB'C'", "AB'C", "ABC", "ABC'"];
    if idx < |terms| then terms[idx] else ""
  }

  /** `generateTerm3Var2`: the ascending pair, written as a two-digit key,
      looked up among eight pairs. The keys are two single digits, so the
      lookup compares the sorted pair itself. */
  function Term3Var2(cells: seq<nat>): string
  {
    PairTable(SortBy(cells, Ascending))
  }

  /** The object `pairs` of `generateTerm3Var2`, `''` for a missing key. */
  function PairTable(sorted: seq<nat>): string
  {
    if sorted == [0, 1] then "A'B'"
    else if sorted == [2, 3] then "A'B"
    else if sorted == [4, 5] then "AB'"
    else if sorted == [6, 7] then "AB"
    else if sorted == [0, 4] then "B'C'"
    else if sorted == [1, 5] then "B'C"
    else if sorted == [3, 7] then "BC"
    else if sorted == [2, 6] then "BC'"
    else ""
  }

  /** `generateTerm3Var4`: the first of six quads all of whose cells the
      group holds. */
  function Term3Var4(cells: seq<nat>): string
  {
    if 0 in cells && 1 in cells && 2 in cells && 3 in cells then "A'"
    else if 4 in cells && 5 in cells && 6 in cells && 7 in cells then "A"
    else if 0 in cells && 4 in cells && 1 in cells && 5 in cells then "B'"
    else if 3 in cells && 7 in cells && 2 in cells && 6 in cells then "B"
    else if 0 in cells && 4 in cells && 2 in cells && 6 in cells then "C'"
    else if 1 in cells && 5 in cells && 3 in cells && 7 in cells then "C"
    else ""
  }

  /** `generateTerm4Var1`: one literal per bit of the cell, complemented
      when that bit is 0. */
  function Term4Var1(idx: nat): string
  {
    Literal((idx / 8) % 2 == 1, 'A') + Literal((idx / 4) % 2 == 1, 'B')
      + Literal((idx / 2) % 2 == 1, 'C') + Literal(idx % 2 == 1, 'D')
  }

  /** `generateTerm4Var2`, `generateTerm4Var4` and `generateTerm4Var8` are
      stubs that return the empty string. */
  function Term4VarStub(cells: seq<nat>): string
  {
    ""
  }

  /** `generateTerm`: dispatch on the number of variables and the group size;
      every other combination gives the empty string. */
  function GenerateTerm(group: Group, n: nat): (term: string)
    ensures term == "1" <==> 2 <= n <= 4 && |group.cells| == Pow2(n)
    ensures term != "" ==> 2 <= n <= 4
  {
    assert Pow2(2) == 4 && Pow2(3) == 8 && Pow2(4) == 16;
    NotOne(group, n);
    var cells := group.cells;
    if n == 2 then
      if |cells| == 4 then "1"
      else if |cells| == 2 && 0 in cells && 1 in cells then "A'"
      else if |cells| == 2 && 2 in cells && 3 in cells then "A"
      else if |cells| == 2 && 0 in cells && 2 in cells then "B'"
      else if |cells| == 2 && 1 in cells && 3 in cells then "B"
      else if |cells| == 1 then Term2Var1(cells[0])
      else ""
    else if n == 3 then
      if |cells| == 8 then "1"
      else if |cells| == 4 then Term3Var4(cells)
      else if |cells| == 2 then Term3Var2(cells)
      else if |cells| == 1 then Term3Var1(cells[0])
      else ""
    else if n == 4 then
      if |cells| == 16 then "1"
      else if |cells| == 8 || |cells| == 4 || |cells| == 2 then Term4VarStub(cells)
      else if |cells| == 1 then Term4Var1(cells[0])
      else ""
    else ""
  }

  /** No table entry is the constant `1`. */
  lemma NotOne(group: Group, n: nat)
    ensures n == 3 && |group.cells| == 1 ==> Term3Var1(group.cells[0]) != "1"
    ensures Term3Var2(group.cells) != "1" && Term3Var4(group.cells) != "1"
    ensures n == 4 && |group.cells| == 1 ==> Term4Var1(group.cells[0]) != "1"
  {
    if n == 4 && |group.cells| == 1 {
      var idx := group.cells[0];
      assert Term4Var1(idx)[0] == 'A';
    }
  }

  /** Letters and primes only: a term never contains the separator. */
  lemma TermNoSpace(group: Group, n: nat)
    ensures NoSpace(GenerateTerm(group, n))
  {
    var cells := group.cells;
    if n == 3 && |cells| == 1 {
      Term3Var1NoSpace(cells[0]);
    } else if n == 3 && |cells| == 2 {
      PairTableNoSpace(SortBy(cells, Ascending));
    } else if n == 4 && |cells| == 1 {
      Term4Var1NoSpace(cells[0]);
    }
  }

  lemma Term3Var1NoSpace(idx: nat)
    ensures NoSpace(Term3Var1(idx))
  {
  }

  lemma PairTableNoSpace(sorted: seq<nat>)
    ensures NoSpace(PairTable(sorted))
  {
  }

  lemma Term4Var1NoSpace(idx: nat)
    ensures NoSpace(Term4Var1(idx))
  {
    var a, b := Literal((idx / 8) % 2 == 1, 'A'), Literal((idx / 4) % 2 == 1, 'B');
    var c, d := Literal((idx / 2) % 2 == 1, 'C'), Literal(idx % 2 == 1, 'D');
    assert ' ' !in a && ' ' !in b && ' ' !in c && ' ' !in d;
    assert Term4Var1(idx) == a + b + c + d;
  }

  /** The 4-variable singleton spelling is the reference minterm. */
  lemma Term4Var1IsMinterm(idx: nat)
    ensures Term4Var1(idx) == MintermTerm(4, idx)
  {
    assert Pow2(3) == 8 && Pow2(2) == 4 && Pow2(1) == 2 && Pow2(0) == 1;
    assert Letter(0) == 'A' && Letter(1) == 'B' && Letter(2) == 'C' && Letter(3) == 'D';
    var a, b := Literal((idx / 8) % 2 == 1, 'A'), Literal((idx / 4) % 2 == 1, 'B');
    var c, d := Literal((idx / 2) % 2 == 1, 'C'), Literal(idx % 2 == 1, 'D');
    assert MintermFrom(4, idx, 3) == d + [];
    assert MintermFrom(4, idx, 2) == c + (d + []);
    assert MintermFrom(4, idx, 1) == b + (c + (d + []));
    assert MintermFrom(4, idx, 0) == a + (b + (c + (d + [])));
    assert a + (b + (c + (d + []))) == a + b + c + d;
  }

  /** A 4-variable singleton's term holds at its cell and nowhere else. */
  lemma FourVarSingletonNames(idx: nat)
    requires idx < 16
    ensures Names(GenerateTerm(Group([idx]), 4), 4, {idx})
  {
    Term4Var1IsMinterm(idx);
    MintermNames(4, idx);
  }

  /** Groups of two, four and eight cells print nothing on a 4-variable map. */
  lemma FourVarStubsEmpty(group: Group)
    requires |group.cells| in {2, 4, 8}
    ensures GenerateTerm(group, 4) == ""
  {
  }

  /** The 2-variable singleton spelling is the reference minterm. */
  lemma Term2Var1IsMinterm(idx: nat)
    requires idx < 4
    ensures Term2Var1(idx) == MintermTerm(2, idx)
  {
    assert Letter(0) == 'A' && Letter(1) == 'B';
  }

  /** A 2-variable singleton's term holds at its cell and nowhere else. */
  lemma TwoVarSingletonNames(idx: nat)
    requires idx < 4
    ensures Names(GenerateTerm(Group([idx]), 2), 2, {idx})
  {
    Term2Var1IsMinterm(idx);
    MintermNames(2, idx);
  }

  /** An ascending pair of table neighbours on the 2-variable map prints a
      single literal that holds at exactly the pair. */
  lemma TwoVarPairNames(a: nat, b: nat)
    requires a < b && b in Adj2(a)
    ensures Names(GenerateTerm(Group([a, b]), 2), 2, {a, b})
  {
    assert Pow2(2) == 4 && Pow2(1) == 2 && Pow2(0) == 1;
    assert Letter(0) == 'A' && Letter(1) == 'B';
    var term := GenerateTerm(Group([a, b]), 2);
    forall m: nat | m < 4
      ensures Denotes(term, 2, m) <==> m in {a, b}
    {
      var v: nat := if b == a + 1 then 0 else 1;
      LiteralsCons(a >= 1, v, [], 2, m);
      assert Literal(a >= 1, Letter(v)) + [] == Literal(a >= 1, Letter(v));
      if a == 0 && b == 1 {
        assert term == "A'";
      } else if a == 0 && b == 2 {
        assert term == "B'";
      } else if a == 1 {
        assert b == 3 && term == "B";
      } else {
        assert a == 2 && b == 3 && term == "A";
      }
    }
  }

  /** The cell each 3-variable singleton term actually names: the Gray-order
      cell at the same position in the map. */
  function Gray3(i: nat): nat
    requires i < 8
  {
    [0, 1, 3, 2, 4, 5, 7, 6][i]
  }

  /** Swapping the last two cells of each row is its own inverse. */
  lemma Gray3Involution(i: nat)
    requires i < 8
    ensures Gray3(i) < 8 && Gray3(Gray3(i)) == i
  {
  }

  lemma Term3Var1IsGrayMinterm(idx: nat)
    requires idx < 8
    ensures Term3Var1(idx) == MintermTerm(3, Gray3(idx))
  {
    assert Letter(0) == 'A' && Letter(1) == 'B' && Letter(2) == 'C';
    assert Pow2(2) == 4 && Pow2(1) == 2 && Pow2(0) == 1;
  }

  /** A 3-variable singleton's term holds at exactly one cell, which is the
      singleton's own cell only for cells 0, 1, 4 and 5; cells 2 and 3, and
      cells 6 and 7, print each other's term. */
  lemma ThreeVarSingletonNames(idx: nat)
    requires idx < 8
    ensures Names(GenerateTerm(Group([idx]), 3), 3, {Gray3(idx)})
    ensures Gray3(idx) == idx <==> idx in {0, 1, 4, 5}
  {
    Term3Var1IsGrayMinterm(idx);
    assert Pow2(3) == 8;
    MintermNames(3, Gray3(idx));
  }

  /** The twelve ascending pairs of cells one bit apart on the 3-variable
      map. */
  lemma ThreeVarOneBitPairs(a: nat, b: nat)
    requires a < b < 8 && OneBitApart(a, b)
    ensures || (a, b) == (0, 1) || (a, b) == (2, 3) || (a, b) == (4, 5) || (a, b) == (6, 7)
            || (a, b) == (0, 4) || (a, b) == (1, 5) || (a, b) == (3, 7) || (a, b) == (2, 6)
            || (a, b) == (0, 2) || (a, b) == (1, 3) || (a, b) == (4, 6) || (a, b) == (5, 7)
  {
  }

  /** A two-literal product holds where both literals do. */
  lemma TwoLiterals(on1: bool, v1: nat, on2: bool, v2: nat, n: nat, m: nat)
    requires v1 < 26 && v2 < 26
    ensures Literals(Literal(on1, Letter(v1)) + Literal(on2, Letter(v2)), n, m) <==>
              && v1 < n && Bit(m, n - 1 - v1) == (if on1 then 1 else 0)
              && v2 < n && Bit(m, n - 1 - v2) == (if on2 then 1 else 0)
  {
    var second := Literal(on2, Letter(v2));
    assert second[0] == Letter(v2);
    LiteralsCons(on1, v1, second, n, m);
    LiteralsCons(on2, v2, [], n, m);
    assert second + [] == second;
  }

  /** A 3-variable pair's term is the table entry of the ascending pair. */
  lemma PairTerm(a: nat, b: nat)
    requires a < b
    ensures GenerateTerm(Group([a, b]), 3) == PairTable([a, b])
  {
    SortAscendingPair(a, b);
  }

  /** The bits of a 3-variable cell, most significant first. */
  lemma CellBits(m: nat)
    requires m < 8
    ensures Bit(m, 2) < 2 && Bit(m, 1) < 2 && Bit(m, 0) < 2
    ensures m == 4 * Bit(m, 2) + 2 * Bit(m, 1) + Bit(m, 0)
  {
    assert Pow2(2) == 4 && Pow2(1) == 2 && Pow2(0) == 1;
  }

  /** The pair table's entries that fix `A` and `B`: cells 2k and 2k + 1. */
  lemma RowPairNames(a: nat)
    requires a in {0, 2, 4, 6}
    ensures Names(PairTable([a, a + 1]), 3, {a, a + 1})
  {
    assert Pow2(3) == 8;
    assert Letter(0) == 'A' && Letter(1) == 'B';
    var on1, on2 := a >= 4, a % 4 == 2;
    var term := PairTable([a, a + 1]);
    assert term == Literal(on1, Letter(0)) + Literal(on2, Letter(1));
    forall m: nat | m < 8
      ensures Denotes(term, 3, m) <==> m in {a, a + 1}
    {
      RowPairAt(on1, on2, a, m);
    }
  }

  lemma RowPairAt(on1: bool, on2: bool, a: nat, m: nat)
    requires m < 8 && a == (if on1 then 4 else 0) + (if on2 then 2 else 0)
    ensures Denotes(Literal(on1, Letter(0)) + Literal(on2, Letter(1)), 3, m) <==> m == a || m == a + 1
  {
    var term := Literal(on1, Letter(0)) + Literal(on2, Letter(1));
    assert term[0] == 'A' && term != "1";
    TwoLiterals(on1, 0, on2, 1, 3, m);
    CellBits(m);
  }

  /** The pair table's entries that fix `B` and `C`: cells c and c + 4. */
  lemma ColumnPairNames(a: nat)
    requires a in {0, 1, 2, 3}
    ensures Names(PairTable([a, a + 4]), 3, {a, a + 4})
  {
    assert Pow2(3) == 8;
    assert Letter(1) == 'B' && Letter(2) == 'C';
    var on1, on2 := a >= 2, a % 2 == 1;
    var term := PairTable([a, a + 4]);
    assert term == Literal(on1, Letter(1)) + Literal(on2, Letter(2));
    forall m: nat | m < 8
      ensures Denotes(term, 3, m) <==> m in {a, a + 4}
    {
      ColumnPairAt(on1, on2, a, m);
    }
  }

  lemma ColumnPairAt(on1: bool, on2: bool, a: nat, m: nat)
    requires m < 8 && a == (if on1 then 2 else 0) + (if on2 then 1 else 0)
    ensures Denotes(Literal(on1, Letter(1)) + Literal(on2, Letter(2)), 3, m) <==> m == a || m == a + 4
  {
    var term := Literal(on1, Letter(1)) + Literal(on2, Letter(2));
    assert term[0] == 'B' && term != "1";
    TwoLiterals(on1, 1, on2, 2, 3, m);
    CellBits(m);
  }

  /** On the 3-variable map the pairs that differ in `B` (cells 0 and 2,
      1 and 3, 4 and 6, 5 and 7) have no entry in the pair table and print
      nothing; every other adjacent pair prints a product that holds at
      exactly the pair. */
  lemma ThreeVarPairNames(a: nat, b: nat)
    requires a < b < 8 && OneBitApart(a, b)
    ensures GenerateTerm(Group([a, b]), 3) == "" <==> b == a + 2
    ensures GenerateTerm(Group([a, b]), 3) != "" ==> Names(GenerateTerm(Group([a, b]), 3), 3, {a, b})
  {
    PairTerm(a, b);
    ThreeVarOneBitPairs(a, b);
    if b == a + 1 {
      assert a in {0, 2, 4, 6};
      RowPairNames(a);
      assert PairTable([a, b]) != "";
    } else if b == a + 4 {
      assert a in {0, 1, 2, 3};
      ColumnPairNames(a);
      assert PairTable([a, b]) != "";
    } else {
      assert b == a + 2 && a in {0, 1, 4, 5};
      PairTableGaps(a);
    }
  }

  lemma PairTableGaps(a: nat)
    requires a in {0, 1, 4, 5}
    ensures PairTable([a, a + 2]) == ""
  {
  }

  /** The six quad terms: one literal each, holding at exactly the quad. */
  lemma QuadTermNames(term: string, quad: set<nat>)
    requires || (term == "A'" && quad == {0, 1, 2, 3}) || (term == "A" && quad == {4, 5, 6, 7})
             || (term == "B'" && quad == {0, 1, 4, 5}) || (term == "B" && quad == {2, 3, 6, 7})
             || (term == "C'" && quad == {0, 2, 4, 6}) || (term == "C" && quad == {1, 3, 5, 7})
    ensures Names(term, 3, quad)
  {
    assert Pow2(3) == 8 && Pow2(2) == 4 && Pow2(1) == 2 && Pow2(0) == 1;
    assert Letter(0) == 'A' && Letter(1) == 'B' && Letter(2) == 'C';
    var v: nat := if term in {"A'", "A"} then 0 else if term in {"B'", "B"} then 1 else 2;
    var on := term in {"A", "B", "C"};
    assert term == Literal(on, Letter(v)) + [];
    forall m: nat | m < 8
      ensures Denotes(term, 3, m) <==> m in quad
    {
      LiteralsCons(on, v, [], 3, m);
    }
  }

  /** Four distinct cells that include a four-cell set are that set. */
  lemma QuadMatch(cells: seq<nat>, quad: set<nat>)
    requires |cells| == 4 && Distinct(cells) && |quad| == 4 && quad <= CellSet(cells)
    ensures CellSet(cells) == quad
  {
    DistinctCard(cells);
    if exists x | x in CellSet(cells) :: x !in quad {
      var x :| x in CellSet(cells) && x !in quad;
      SubsetCard(quad + {x}, CellSet(cells));
    }
  }

  /** A 3-variable group of four distinct cells prints a term only when its
      cells are one of the six quads, and the term holds at exactly them. */
  lemma ThreeVarQuadNames(cells: seq<nat>)
    requires |cells| == 4 && Distinct(cells)
    ensures GenerateTerm(Group(cells), 3) != "" ==> Names(GenerateTerm(Group(cells), 3), 3, CellSet(cells))
  {
    var term := GenerateTerm(Group(cells), 3);
    if term != "" {
      var quad: set<nat> :=
        if term == "A'" then {0, 1, 2, 3}
        else if term == "A" then {4, 5, 6, 7}
        else if term == "B'" then {0, 1, 4, 5}
        else if term == "B" then {2, 3, 6, 7}
        else if term == "C'" then {0, 2, 4, 6}
        else {1, 3, 5, 7};
      assert quad <= CellSet(cells);
      QuadMatch(cells, quad);
      QuadTermNames(term, quad);
    }
  }
}

=== FILE: wrappers.dfy ===
/** Failure-carrying result types used across the minimiser. */
module Wrappers {

  /** An optional value: the model of a JavaScript `null` result. */
  datatype Option<+T> = None | Some(value: T)

  /** Either a value or the reason it could not be produced. */
  datatype Result<+R, +E> = Success(value: R) | Failure(error: E)
}
